=== FILE: README.md ===
# ShadowLite core in Dafny

ShadowLite is a shadow-puppet "digital human". A user types or speaks a
question. A language-model agent answers it and picks performance actions as
bracketed tags such as `[跳舞]`. The pygame front end then plays the matching
skeleton clips, a JSON file of per-frame joint positions each, as a paper
puppet. This project models the logic between the model's text and the pixels
on screen:

- **Clip loading and stitching** (`ClipLoader`, main.py `load_frames`).
  Unreadable or empty clips are skipped. Every frame gets the elbow and
  shoulder corrections. The first clip is centred on its canvas and gives the
  baseline joints. Every later clip is moved so that its first pelvis sits on
  the previous clip's last pelvis. When no clip was centred, the first posed
  frame becomes the baseline.
- **The viewer's loader** (`Viewer`, pygame_Alpha.py `main`). It does the same
  stitching with a larger elbow drop, but raises on any missing piece. It also
  records which file each frame came from and each file's frame range, which
  the debug label and frame stepping use.
- **Bone placement** (`Skeleton`, pygame_Alpha.py `get_angle` and `render`).
  This covers the clockwise bone angle, the stable sort by `DRAW_ORDER`, and
  the sprite anchor scaled by 0.79 about the canvas centre.
- **The agent's reply handling** (`Agent`, digital_human_agents_v2.py). Mapping
  keys are normalised, and a name is looked up by its normalised form. Tags are
  found with `\[([^\]]+?)\]`, and the first three known actions are kept, with a
  default when no tag is present. The reply is cut at the first `<STYLE>` or
  `</STYLE>`. A timeout falls back to the default action and a busy reply.
- **The front end's glue** (`Frontend`, main.py). `process_and_enqueue` turns a
  transcript into a queued request, and the reply bubble is wrapped greedily
  into lines.
- **The player state machine** (`Player`, main.py `pygame_loop`).
  - Requested names resolve to clip files.
  - When idle, the next request is dequeued and started. The idle loop and the
    action are stepped once per frame.
  - A single "anchor" point keeps the pelvis continuous. Starting an action
    puts its first pelvis on the anchor; the anchor then moves to where the
    action's last frame leaves the pelvis, and the idle loop is drawn around
    it again.

Modules `Maybe` (`Option`, `Result`), `Geometry` (points, joint maps, rigid
shifts) and `Text` (Python `strip`, `lower` and quote stripping) hold the
shared vocabulary.

A few choices of representation:

- Coordinates are exact reals, and `w // 2` is `Half(w)`, which is floor
  division as in Python.
- A clip file is a `ClipFile` of frames plus an optional resolution.
- The file system the player sees is a map from path to `Option<ClipFile>`.
  A present key is an existing file, and `None` is a file that cannot be read.
- `atan` in degrees is a parameter of the angle function. The range lemmas
  assume only that it maps positive ratios into (0, 90).
- The chat model, the font's width function and the agent itself are
  parameters or datatypes of outcomes.

## Model

| member | source | states |
|---|---|---|
| ClipLoader.CorrectSpec | main.py:365-372 | each frame's elbows drop 15 px; when both shoulders exist, the left moves to their mid x and the right 30 px left of it; no other joint changes and no joint is added or removed |
| ClipLoader.CorrectKeepsPelvis | main.py:365-372 | the corrections never move the pelvis, so centring and stitching see the recorded pelvis |
| ClipLoader.AlignTo | main.py:378-382 | moving a clip so its first pelvis lands on a target moves every joint of every frame by the same vector and keeps every frame's joint names |
| ClipLoader.AlignTranslates | main.py:378-382 | centring or stitching a clip moves all of its frames by one common vector |
| ClipLoader.AlignIsRigid | main.py:380-382 | centring or stitching never distorts a pose: all joint-to-joint offsets inside each frame are preserved |
| ClipLoader.AlignIdempotent | main.py:397-401 | aligning an already aligned clip again changes nothing |
| ClipLoader.SkipsUnusable | main.py:345-360 | missing, unreadable and frameless files contribute nothing: loading only the accepted clips gives the same frames, baseline and canvas |
| ClipLoader.FoldConsistent | main.py:338-405 | during the loop, `first` is set exactly while nothing has been appended, and the baseline is empty or equal to the first output frame |
| ClipLoader.FoldExtends | main.py:405 | frames are only ever appended, and once set the baseline never changes |
| ClipLoader.StepAdded | main.py:365-405 | the frames one accepted clip adds are its corrected frames moved by one vector, each a rigid image of its raw counterpart, placed after the earlier frames |
| ClipLoader.StepAppendsRigid | main.py:365-405 | each accepted clip adds exactly its own frame count to the end, leaves the earlier frames alone, and the added frames are its corrected frames all moved by one common vector |
| ClipLoader.LoadConcatenates | main.py:337-417 | the output has one frame per frame of the accepted clips, in order; each is a rigid copy of its corrected source frame, and each accepted clip's slice of the output is its corrected frames moved by one vector of its own |
| ClipLoader.ClipTranslated | main.py:365-405 | the frames of the k-th accepted clip sit right after those of the clips before it, as its corrected frames moved by one common vector |
| ClipLoader.LoadNeedsClips | main.py:337-417 | an empty file list loads no frame |
| ClipLoader.LoadLength | main.py:337-417 | the output length is the sum of the frame counts of the readable clips |
| ClipLoader.FirstClipCentred | main.py:374-386 | when the first usable clip has a pelvis in frame 0, the output's first pelvis is the centre `(w//2, h//2)` of that clip's resolution (or (0,0)) and the baseline is that centred frame |
| ClipLoader.LoadOneCanvas | main.py:362-363 | a single readable clip sets the canvas to its own resolution, or leaves it (0,0) when none is given |
| ClipLoader.LoadCanvas | main.py:340-363 | the canvas of any load, single or multi-clip, is the resolution of the last accepted clip that gives one, or (0,0) when none does; clips without a resolution keep the previous value |
| ClipLoader.FoldCanvas | main.py:343-363 | the same canvas statement for the loading loop before the final result is built, proved by induction over the clip list |
| ClipLoader.StepCanvas | main.py:345-363 | one loop step takes the canvas from an accepted clip's resolution, or keeps the previous canvas when it gives none; a skipped file changes nothing |
| ClipLoader.StitchContinuous | main.py:392-401 | at the seam of a later clip whose first frame has a pelvis, that clip's first pelvis equals the previous last pelvis: no jump |
| ClipLoader.UnalignedAppended | main.py:402-405 | when either pelvis is missing, a later clip is appended corrected but unmoved |
| ClipLoader.BaselineFallback | main.py:374-414 | the baseline is the first output frame that has any joint, and it is empty exactly when no output frame has one |
| ClipLoader.UncentredBaseline | main.py:386-390 | when no clip is accepted or the first accepted clip has no pelvis in frame 0, the loop leaves the baseline empty |
| ClipLoader.FirstPosed | main.py:408 | the first frame with any joint: every frame before it is empty, and there is none only when all frames are empty |
| Viewer.Fault | pygame_Alpha.py:170-199 | names the first lookup that raises for file `i`, and there is none exactly when the file is loadable |
| Viewer.LoadPlaylist | pygame_Alpha.py:165-211 | succeeds exactly when the list is non-empty and every file loads; then the ranges tile the frames one per file, each file's range holds that file's frames with the 20 px elbow drop and the shoulder correction, all moved by one vector per file, each frame maps to its file's path, no seam has a pelvis jump, and the first file is centred and gives the baseline; on failure it reports the first file that raises |
| Viewer.ExtendContents | pygame_Alpha.py:207-211 | appending one file's frames moved by a single vector, with its range, keeps every earlier file's range and contents and adds the new file's |
| Viewer.ContentsStep | pygame_Alpha.py:176-211 | one iteration of the loop appends the file's corrected frames moved by one vector: the centring offset for the first file, the seam offset for later ones |
| Viewer.ExtendProgress | pygame_Alpha.py:176-211 | one iteration of the viewer loop keeps all of the above bookkeeping for one more file |
| Viewer.DebugLabel | pygame_Alpha.py:102-109 | the label the debug overlay builds, as written, by zipping the per-frame names with the per-file ranges; any label has a frame number between 1 and the total |
| Viewer.DebugLabelFound | pygame_Alpha.py:103-104 | a label is produced exactly when some zipped range holds the frame index |
| Viewer.LabelOfTiledFrame | pygame_Alpha.py:103-109 | for tiling ranges, the label comes from the range that holds the index, with the frame counted from 1 within that range |
| Viewer.DebugLabelMislabels | pygame_Alpha.py:103-109 | with a first file of at least two frames, the first frame of the second file is labelled with the first file's name |
| Viewer.FileLabel | pygame_Alpha.py:103-107 | the intended label: names per file zipped with ranges per file; frame numbers lie between 1 and the total |
| Viewer.FileLabelNamesSource | pygame_Alpha.py:103-107 | with per-file names, every frame of a loaded playlist is labelled with the file it came from, its 1-based position in it and that file's frame count |
| Viewer.StepsInverse | pygame_Alpha.py:264-267 | stepping forward then back (or back then forward) through the paused frames returns to the same frame |
| Viewer.Advance | pygame_Alpha.py:267 | the next frame index stays in range and wraps from the last frame to 0 |
| Viewer.Back | pygame_Alpha.py:265 | the previous frame index stays in range and wraps from 0 to the last frame |
| Skeleton.AngleOnAxes | pygame_Alpha.py:67-70 | a vertical bone points 180 when the start is below the end and 0 otherwise; a horizontal bone gets 0 |
| Skeleton.AngleQuadrants | pygame_Alpha.py:64-76 | the angle lies in [0, 360), and each of the four diagonal directions lands in its own open quadrant |
| Skeleton.AngleReversed | pygame_Alpha.py:64-76 | swapping the ends of a non-horizontal bone turns its angle by half a turn; horizontal bones get 0 both ways |
| Skeleton.AngleTranslationInvariant | pygame_Alpha.py:64-76 | moving both joints by the same vector leaves the angle unchanged |
| Skeleton.SortByCorrect | pygame_Alpha.py:111 | the sort by draw order is a permutation, ordered by key, and stable: parts with equal keys keep their `PART_NAMES` order |
| Skeleton.InsertStable | pygame_Alpha.py:111 | inserting an element ahead of all equal keys puts it first in its key class and keeps the others in order |
| Skeleton.DrawListIsSorted | pygame_Alpha.py:22-34 | the parts are drawn in the order right_hip, left_hip, left_elbow, head, left_wrist, body, right_knee, left_knee, right_elbow, right_wrist |
| Skeleton.Render | pygame_Alpha.py:111-141 | one sprite per part, in draw order |
| Skeleton.RenderPlacesAtJoints | pygame_Alpha.py:116-139 | each sprite is anchored at the current start joint plus the part's offset, scaled by 0.79 about the canvas centre (y shifted by 65), and turned by the angle of its bone |
| Skeleton.RenderIgnoresBaseline | pygame_Alpha.py:118-124 | the baseline joint cancels out: any baseline with the needed joints gives the same sprites |
| Skeleton.RenderFollowsShift | pygame_Alpha.py:120-139 | shifting the frame by a vector keeps every angle and moves every anchor by 0.79 times that vector |
| Skeleton.ScaleAboutCentre | pygame_Alpha.py:138-139 | the x scaling keeps the centre column, the y scaling takes the point 65 px above the centre to the centre, and all distances shrink by 0.79 |
| Agent.NormaliseIdempotent | digital_human_agents_v2.py:11 | normalising a normalised key changes nothing, so stored keys are found under themselves |
| Agent.RekeyKeys | digital_human_agents_v2.py:11 | a key is present after normalisation exactly when some original key normalises to it |
| Agent.RekeyLastWins | digital_human_agents_v2.py:11 | when several keys normalise alike, the last one's path is kept |
| Agent.GetActionPath | digital_human_agents_v2.py:195-198 | a name is found exactly when its stripped, lower-cased form is a mapping key, and then gives that key's path |
| Agent.LookupOwnName | digital_human_agents_v2.py:11 | every original key that is not shadowed by a later one finds its own path, whatever its spacing or case |
| Agent.KnownNames | digital_human_agents_v2.py:11 | a name is known exactly when it normalises like some original key |
| Agent.CloseFrom | digital_human_agents_v2.py:241 | finds the first `]` at or after a position, or reports that there is none |
| Agent.FindBrackets | digital_human_agents_v2.py:241 | every captured tag name is non-empty and has no `]` |
| Agent.NoBracketNoTags | digital_human_agents_v2.py:241 | text without `[` yields no tag |
| Agent.FindBracketsTag | digital_human_agents_v2.py:241 | bracket-free text followed by `[n]` yields `n`, and scanning resumes after the `]` |
| Agent.FindBracketsRoundTrip | digital_human_agents_v2.py:241 | round trip: bracketing well-formed names and scanning gives back the same names in order |
| Agent.DefaultAction | digital_human_agents_v2.py:244 | the path mapped under "常态", else "actions/idle" |
| Agent.ParseActions | digital_human_agents_v2.py:239-255 | at most three paths; the default when the reply has no tag; otherwise the first three of the tags' resolved paths, all non-empty paths of the mapping |
| Agent.Take3 | digital_human_agents_v2.py:255 | `found[:3]`: a prefix of the list, of length at most three |
| Agent.SelectOne | digital_human_agents_v2.py:248-253 | one tag contributes its path when its name is known with a non-empty path, and nothing otherwise |
| Agent.SelectAppend | digital_human_agents_v2.py:247-253 | tags are handled one by one: the paths of two runs of tags are the paths of the first followed by those of the second |
| Agent.SelectDropsUnknown | digital_human_agents_v2.py:252-253 | an unknown tag anywhere among known and unknown tags is dropped without disturbing the others |
| Agent.SelectKeepsKnown | digital_human_agents_v2.py:249-251 | a known tag anywhere among other tags contributes its path at its own place |
| Agent.SelectKnown | digital_human_agents_v2.py:247-251 | when every tag is known, the paths come out in tag order, one per tag |
| Agent.SelectUnknown | digital_human_agents_v2.py:252-253 | tags whose names are all unknown give no path |
| Agent.ParseKnownActions | digital_human_agents_v2.py:239-255 | bracketed known names give their paths in order, cut to the first three |
| Agent.ParseUnknownActions | digital_human_agents_v2.py:239-255 | a reply with tags but no known name gives no action at all, not the default |
| Agent.ParseMixedActions | digital_human_agents_v2.py:239-255 | in a reply whose tags mix known and unknown names, an unknown tag is skipped and the result is the first three paths of the tags before and after it |
| Agent.CutAtTag | digital_human_agents_v2.py:228 | the kept text is a prefix with no style tag in it, and a tag starts right after it unless it is all of the text |
| Agent.TruncateStyled | digital_human_agents_v2.py:228 | a reply of the form `text</STYLE>situation</STYLE>` is shown as the stripped text |
| Agent.TruncateUntagged | digital_human_agents_v2.py:228 | a reply without `<` is only stripped |
| Agent.ProcessInput | digital_human_agents_v2.py:200-234 | a timeout of either conversation gives the default action and the busy reply; otherwise the parsed actions of the action reply and the cleaned text reply; at most three actions |
| Frontend.ProcessAndEnqueue | main.py:192-223 | without an agent it queues `idle` with the system-problem reply; blank input queues nothing; an exception queues `idle` with the apology; otherwise the agent's reply with its actions, or `idle` when those are empty or not a list; a queued request always has an action |
| Frontend.EnqueuesAgentAnswer | main.py:205-216 | with the agent of digital_human_agents_v2.py, the queued request carries its parsed actions (or `idle`) and its cleaned reply, or on a timeout the default action and the busy reply |
| Frontend.CloseLine | main.py:753-757 | closing a line keeps the wrapped lines well-formed and extends their concatenation by the line |
| Frontend.KeepChar | main.py:749-752 | a character that still fits joins the current line and the loop state is kept |
| Frontend.BreakAtChar | main.py:753-755 | a character that does not fit closes the current line, which could not take it, and opens a new one holding just that character |
| Frontend.WrapLoop | main.py:746-755 | after the loop the finished lines and the open line spell out the reply, the finished lines are wrapped, and the last one could not take the open line's first character |
| Frontend.CloseLast | main.py:756-757 | a non-empty open line becomes the last line; the lines then concatenate to the whole reply and stay wrapped |
| Frontend.WrapReply | main.py:746-757 | the lines concatenate to the reply; each line fits or is one character (only the first may be empty); each break happened because the next character would not fit; only the first line may be empty, and a non-empty reply ends with a non-empty line |
| Player.LastIndexOf | main.py:605-611 | the last occurrence of a character, or -1 when there is none |
| Player.LastIndexIn | main.py:605-611 | the last occurrence of a character between two positions, or -1 when there is none; the suffix is searched for after the last `/` |
| Player.DotAfterSlash | main.py:608 | the last dot after the last `/` is the last dot of the final component, and it gives a suffix exactly when it neither starts nor ends that component |
| Player.SlashBeforeDot | main.py:608 | the last dot of the final component lies after the last `/` |
| Player.Suffix | main.py:608 | `Path.suffix` starts at the last dot of the final component when that dot neither starts nor ends the component, and is empty otherwise, including when the component has no dot; it is a tail of the path with no `/` and no further dot |
| Player.WithJsonSuffix | main.py:611 | the suffix, if any, is replaced by `.json`: the path is a stem followed by its suffix and the result is that stem followed by `.json`; a path with no suffix gets `.json` appended |
| Player.ResolvesPathSuffix | main.py:608-611 | a name with a directory and a suffix other than `.json` becomes that path with its suffix replaced by `.json` |
| Player.TextSuffix | main.py:608 | the suffix of `dir/x.txt` is `.txt` |
| Player.ReplacesTextSuffix | main.py:610-611 | `dir/x.txt` stands for `dir/x.json` |
| Player.ResolveAction | main.py:603-632 | a name resolves exactly when the candidate chosen for its stripped, unquoted form exists, and then to that candidate |
| Player.ResolvesOwnClip | main.py:613-616 | a bare name with its own `actions/<name>.json` uses it, before `ACTION_MAP` |
| Player.ResolvesMappedName | main.py:617-622 | otherwise a name of `ACTION_MAP` uses `actions/<mapped>.json` |
| Player.UnresolvedName | main.py:625-626 | any other bare name has no candidate |
| Player.ResolvesPathName | main.py:610-611 | a name with a directory and no suffix becomes that path with `.json` |
| Player.ResolveAll | main.py:601-632 | `json_list` holds existing files only, at most one per requested action |
| Player.ResolveOne | main.py:603-632 | a single requested name contributes its resolved file, or nothing when it does not resolve |
| Player.ResolveAllAppend | main.py:603-632 | names are resolved one by one: the files of two runs of names are the files of the first followed by those of the second |
| Player.ResolveAllEmpty | main.py:601-635 | `json_list` is empty exactly when none of the requested names resolves |
| Player.Sources | main.py:637 | the clips handed to the loader are those of the resolved files, in order |
| Player.IdleOffset | main.py:685-690 | the idle offset puts the idle baseline pelvis (or the canvas centre) on the anchor |
| Player.StartAction | main.py:639-657 | a started action plays from frame 0; its baseline pelvis (or canvas centre) lands on the anchor; the anchor moves to where its last frame leaves the pelvis, and stays where it was when that frame has no pelvis |
| Player.Dequeue | main.py:597-674 | a request is taken only when idle and the queue is non-empty, and exactly one is taken |
| Player.Advance | main.py:676-712 | stepping keeps every index in range and never moves the anchor |
| Player.Tick | main.py:597-722 | a full pass keeps every index in range |
| Player.DequeueKeepsValid | main.py:597-674 | handling a request keeps the indices in range |
| Player.Startup | main.py:427-516 | start-up succeeds exactly when the idle clip exists and loads frames; the figure then starts idle at frame 0 with no action and no reply; the offset puts the idle baseline pelvis (or the origin) on the canvas centre `(w//2, h//2)`; the anchor is the idle clip's last pelvis plus that offset, or the centre when the last frame has no pelvis |
| Player.TickKeepsSteady | main.py:597-722 | every pass keeps the anchor equal to the playing action's last pelvis plus its offset, and a playing action has frames |
| Player.DequeueKeepsSteady | main.py:597-674 | starting or refusing a request keeps that invariant |
| Player.AdvanceKeepsSteady | main.py:676-712 | stepping a frame keeps that invariant |
| Player.TickQueue | main.py:597-598 | a pass consumes one request when idle with a waiting request, and none otherwise |
| Player.IdleTick | main.py:677-690 | an idle pass with nothing queued shows the current idle frame around the anchor and advances the idle index cyclically |
| Player.PlayingTick | main.py:698-722 | a playing pass ignores the queue, shows the current action frame by the action offset, and returns to idle frame 0 after the last frame |
| Player.UnknownRequest | main.py:669-674 | a request whose actions all fail to resolve leaves the figure idle and in place, and answers that the action is unknown |
| Player.EmptyLoad | main.py:661-667 | a request whose files yield no frame restarts the idle loop in place and answers that the figure cannot move |
| Player.ActionStartsOnAnchor | main.py:637-657 | a loading request starts in the same pass, with its reply, and the first frame shown puts the pelvis exactly on the previous anchor |
| Player.DequeueStarts | main.py:635-657 | an idle pass whose request loads frames takes that request off the queue and starts its action with its reply |
| Player.AnchorMovesOnlyOnStart | main.py:597-722 | the anchor moves only in a pass that starts an action |
| Player.ActionHandsOverToIdle | main.py:705-712 | after the last action frame the figure returns to idle frame 0, which is drawn with the pelvis on the same anchor: no jump at the hand-over |
| Player.StartupCentred | main.py:436-516 | when the idle clip's first frame has a pelvis, it is already centred and the initial offset is zero |
| Player.StartupFirstIdleFrame | main.py:506-514 | with a centred idle clip, the first pass draws idle frame 0 with its pelvis on the idle clip's last pelvis (or the centre), not where loading centred it |

## Left out

- Audio capture, speech recognition (Vosk), text to speech, pygame events,
  fonts, images, drawing, fading and the background threads are I/O. The
  queue between the agent thread and the loop is a plain sequence: concurrency
  is not modelled.
- The language-model conversations are outcomes (`Agent.Chat`); prompts,
  `autogen` agents, `_validate_text_response` (the identity) and
  `lru_cache` (no observable effect) are not modelled.
- JSON parsing and file reads are abstracted: a file is parsed or `None`. A
  frame's missing `joints` key is not told apart from an empty joint map. A
  null `pelvis` value, which is falsy in Python, is not modelled.
- Floating-point rounding is not modelled, nor is the `int()` truncation of
  scaled sprite sizes.
- The resolution pair is read as `(w, h)`, as both loaders unpack it. The
  sampling script writes `[height, width]`; that script is not part of this
  model.
- `rotate_bound_pg`, the pivot parameters and the blit position's pivot
  compensation are not modelled. A sprite is its angle and the anchor its pivot
  is drawn at.
- `render`'s debug overlay is off by the `DEBUG_MODE` constant. It is modelled
  as a function of its inputs; the drawing is left out.
- `str.lower()` is modelled on ASCII letters only. The action names are
  Chinese or ASCII.
- `Player.HasParent` reads `Path(name).parent != Path('.')` as "the name
  contains `/`". Paths such as `./x` or `a//b` are not normalised.
- The `if original_pos` filter of main.py line 721 is not modelled because
  positions are always present. The empty-idle guard of lines 678-681 cannot
  fire after a successful start-up; `Player.Valid` carries that fact.
- The viewer's interactive pivot and joint editing, mouse selection and
  `save_pivot_config` are editor features outside the player.
- `initialize_agent_system`, voice recording and the UI layout helpers of
  main.py are not part of this model.
- Player.Dequeue: its contract states only the queue behaviour. What it does to
  the anchor and offset is stated by `Player.StartAction`,
  `Player.ActionStartsOnAnchor`, `Player.AnchorMovesOnlyOnStart` and
  `Player.DequeueKeepsSteady`.
- Skeleton.GetAngle: `math.degrees(math.atan(..))` is a parameter. The range
  and half-turn lemmas assume only that it maps positive ratios into (0, 90).

Where the code differs from its obvious reading, the model follows the code:

- A vertical bone pointing up (start below end on screen, `y1 > y2`) gets 180.
- `render` has no skip path: a missing joint raises, so `Render` requires all
  joints.
- The idle loop puts the idle baseline pelvis, not frame 0, on the anchor.
- The start-up anchor is the idle clip's last pelvis, while the idle loop
  starts at frame 0: the first idle frame is drawn moved by the difference
  between the last and the first idle pelvis (`Player.StartupFirstIdleFrame`).
- `process_and_enqueue` checks for the agent before it checks for blank input.

## Findings

| source | as written | input that shows it | evidently intended | confidence | as-written member | corrected member |
|---|---|---|---|---|---|---|
| pygame_Alpha.py:103-109 | the debug overlay zips `frame_json_mapping` (one name per frame) with `frame_json_ranges` (one range per file), so range k is paired with the name of frame k | files a.json (3 frames) and b.json (2 frames): frame 3, the first of b.json, is labelled "a.json, Frame 1/2" | pair each file's range with that file's name, giving "b.json, Frame 1/2" | not executed | Viewer.DebugLabelMislabels | Viewer.FileLabelNamesSource |

=== FILE: agent.dfy ===
/** The deterministic part of `DigitalHumanAgentSystem`
    (digital_human_agents_v2.py): action-name normalisation and lookup, the
    bracketed action-tag parser, the reply clean-up and the timeout fallback
    of `process_input`. The two language-model conversations are inputs. */
module Agent {
  import opened Maybe
  import opened Text

  /** `k.strip().lower()`, the form in which action names are compared. */
  function Normalise(k: string): string {
    Lower(Strip(k))
  }

  /** Normalising a normalised name changes nothing, so a key stored in
      normalised form is found again under its own normalisation. */
  lemma NormaliseIdempotent(k: string)
    ensures Normalise(Normalise(k)) == Normalise(k)
  {
    var l := Lower(Strip(k));
    LowerStripped(Strip(k));
    TrimKeeps(l, IsSpace);
    LowerIdempotent(l);
  }

  /** Lower-casing a stripped string leaves nothing to strip. */
  lemma LowerStripped(s: string)
    requires |s| > 0 ==> !IsSpace(s[0]) && !IsSpace(s[|s| - 1])
    ensures var l := Lower(s); |l| > 0 ==> !IsSpace(l[0]) && !IsSpace(l[|l| - 1])
  {
    if |s| > 0 {
      LowerKeepsSpace(s[0]);
      LowerKeepsSpace(s[|s| - 1]);
    }
  }

  /** The action mapping as an ordered list of `(name, path)` items. */
  type Items = seq<(string, string)>

  /** The items keyed by `norm` of their names; a later item overrides an
      earlier one with the same key. */
  function Rekey(items: Items, norm: string -> string): map<string, string> {
    if |items| == 0 then map[]
    else
      var last := items[|items| - 1];
      Rekey(items[..|items| - 1], norm)[norm(last.0) := last.1]
  }

  /** The rekeyed mapping knows exactly the keys of the items. */
  lemma {:induction false} RekeyKeys(items: Items, norm: string -> string, k: string)
    ensures k in Rekey(items, norm) <==> exists i :: 0 <= i < |items| && norm(items[i].0) == k
  {
    if |items| > 0 {
      var front := items[..|items| - 1];
      RekeyKeys(front, norm, k);
      if k in Rekey(front, norm) {
        var i :| 0 <= i < |front| && norm(front[i].0) == k;
        assert items[i] == front[i];
      }
      if exists i :: 0 <= i < |items| && norm(items[i].0) == k {
        var i :| 0 <= i < |items| && norm(items[i].0) == k;
        if i < |front| {
          assert items[i] == front[i];
        }
      }
    }
  }

  /** Each key maps to the path of the last item carrying it. */
  lemma {:induction false} RekeyLastWins(items: Items, norm: string -> string, i: int)
    requires 0 <= i < |items|
    requires forall j :: i < j < |items| ==> norm(items[j].0) != norm(items[i].0)
    ensures norm(items[i].0) in Rekey(items, norm)
    ensures Rekey(items, norm)[norm(items[i].0)] == items[i].1
  {
    if i < |items| - 1 {
      var front := items[..|items| - 1];
      assert front[i] == items[i];
      forall j | i < j < |front| ensures norm(front[j].0) != norm(front[i].0) {
        assert front[j] == items[j];
      }
      RekeyLastWins(front, norm, i);
    }
  }

  /** The constructor's `{k.strip().lower(): v for k, v in action_mapping.items()}`. */
  function NormaliseMapping(items: Items): map<string, string> {
    Rekey(items, Normalise)
  }

  /** `_get_action_path`: the path of an action name, compared after the same
      normalisation; `None` for an unknown name. */
  function GetActionPath(mapping: map<string, string>, name: string): (r: Option<string>)
    ensures r.Some? <==> Normalise(name) in mapping
    ensures r.Some? ==> r.value == mapping[Normalise(name)]
  {
    var clean := Normalise(name);
    if clean in mapping then Some(mapping[clean]) else None
  }

  /** A configured action is found under its own original spelling, whatever
      whitespace or capitals it was written with: the path of the last item
      of that name. */
  lemma LookupOwnName(items: Items, i: int)
    requires 0 <= i < |items|
    requires forall j :: i < j < |items| ==> Normalise(items[j].0) != Normalise(items[i].0)
    ensures GetActionPath(NormaliseMapping(items), items[i].0) == Some(items[i].1)
  {
    RekeyLastWins(items, Normalise, i);
    NormaliseIdempotent(items[i].0);
  }

  /** A name is known exactly when some item normalises to the same key. */
  lemma KnownNames(items: Items, name: string)
    ensures GetActionPath(NormaliseMapping(items), name).Some? <==>
      exists i :: 0 <= i < |items| && Normalise(items[i].0) == Normalise(name)
  {
    RekeyKeys(items, Normalise, Normalise(name));
  }

  // ---------------------------------------------------------------------
  // Action tags: re.findall(r"\[([^\]]+?)\]", response)

  /** The index of the first `]` at or after `i`. */
  function CloseFrom(s: string, i: nat): (r: Option<nat>)
    requires i <= |s|
    ensures r.Some? ==> i <= r.value < |s| && s[r.value] == ']'
    ensures r.Some? ==> forall m :: i <= m < r.value ==> s[m] != ']'
    ensures r.None? ==> forall m :: i <= m < |s| ==> s[m] != ']'
    decreases |s| - i
  {
    if i == |s| then None
    else if s[i] == ']' then Some(i)
    else CloseFrom(s, i + 1)
  }

  /** The non-overlapping matches of `\[([^\]]+?)\]`, left to right: at a `[`
      the lazy group grows to the first `]` and must hold at least one
      character; each capture is non-empty and free of `]`. */
  function FindBrackets(s: string): (r: seq<string>)
    ensures forall k :: 0 <= k < |r| ==> |r[k]| > 0 && ']' !in r[k]
    decreases |s|
  {
    if |s| == 0 then []
    else if s[0] == '[' then
      match CloseFrom(s, 1)
      case Some(j) =>
        if j >= 2 then [s[1..j]] + FindBrackets(s[j + 1..]) else FindBrackets(s[1..])
      case None => FindBrackets(s[1..])
    else FindBrackets(s[1..])
  }

  /** Text without an opening bracket holds no tag. */
  lemma {:induction false} NoBracketNoTags(s: string)
    requires '[' !in s
    ensures FindBrackets(s) == []
  {
    if |s| > 0 {
      assert s[0] == s[0];
      NoBracketNoTags(s[1..]);
    }
  }

  /** The tag `[n]`. */
  function Tag(n: string): string {
    "[" + n + "]"
  }

  /** A tag at the start of the text contributes its name, and scanning goes
      on after the closing bracket. */
  lemma TagFirst(n: string, rest: string)
    requires |n| > 0 && ']' !in n
    ensures FindBrackets(Tag(n) + rest) == [n] + FindBrackets(rest)
  {
    var s := Tag(n) + rest;
    assert s[0] == '[';
    assert s[|n| + 1] == ']';
    forall m | 1 <= m < |n| + 1 ensures s[m] != ']' {
      assert s[m] == n[m - 1];
    }
    CloseFromFirst(s, 1, |n| + 1);
    assert s[1..|n| + 1] == n;
    assert s[|n| + 2..] == rest;
  }

  /** Text free of `[` followed by a tag `[n]` contributes the name `n`. */
  lemma {:induction false} FindBracketsTag(g: string, n: string, rest: string)
    requires '[' !in g && |n| > 0 && ']' !in n
    ensures FindBrackets(g + Tag(n) + rest) == [n] + FindBrackets(rest)
    decreases |g|
  {
    if |g| > 0 {
      var s := g + Tag(n) + rest;
      assert s[0] == g[0];
      assert s[1..] == g[1..] + Tag(n) + rest;
      FindBracketsTag(g[1..], n, rest);
    } else {
      assert g + Tag(n) + rest == Tag(n) + rest;
      TagFirst(n, rest);
    }
  }

  /** `CloseFrom` finds the first closing bracket. */
  lemma CloseFromFirst(s: string, i: nat, j: nat)
    requires i <= j < |s| && s[j] == ']'
    requires forall m :: i <= m < j ==> s[m] != ']'
    ensures CloseFrom(s, i) == Some(j)
  {
    var r := CloseFrom(s, i);
    assert r.Some?;
  }

  /** The tag text the action agent is asked to produce: each name in brackets. */
  function Bracketed(names: seq<string>): string {
    if |names| == 0 then "" else Tag(names[0]) + Bracketed(names[1..])
  }

  /** Round trip: the parser recovers every well-formed name it is given. */
  lemma {:induction false} FindBracketsRoundTrip(names: seq<string>)
    requires forall k :: 0 <= k < |names| ==> |names[k]| > 0 && ']' !in names[k]
    ensures FindBrackets(Bracketed(names)) == names
  {
    if |names| > 0 {
      FindBracketsRoundTrip(names[1..]);
      TagFirst(names[0], Bracketed(names[1..]));
    }
  }

  // ---------------------------------------------------------------------
  // _parse_actions

  /** `self.action_mapping.get("常态", "actions/idle")`. */
  function DefaultAction(mapping: map<string, string>): (r: string)
    ensures "常态" in mapping ==> r == mapping["常态"]
    ensures "常态" !in mapping ==> r == "actions/idle"
  {
    if "常态" in mapping then mapping["常态"] else "actions/idle"
  }

  /** The paths of the names whose `norm` key maps to a non-empty path, in
      order; unknown names and empty paths are skipped. */
  function Select(mapping: map<string, string>, norm: string -> string, names: seq<string>): (r: seq<string>)
    ensures |r| <= |names|
    ensures forall k :: 0 <= k < |r| ==> r[k] != "" && r[k] in mapping.Values
  {
    if |names| == 0 then []
    else
      var key := norm(names[0]);
      (if key in mapping && mapping[key] != "" then [mapping[key]] else []) + Select(mapping, norm, names[1..])
  }

  /** The loop of `_parse_actions`: the truthy paths of the captured names. */
  function Resolved(mapping: map<string, string>, names: seq<string>): (r: seq<string>)
    ensures |r| <= |names|
    ensures forall k :: 0 <= k < |r| ==> r[k] != "" && r[k] in mapping.Values
  {
    Select(mapping, Normalise, names)
  }

  /** What one captured name contributes: its path when the name is known
      and the path is non-empty, nothing otherwise. */
  lemma SelectOne(mapping: map<string, string>, norm: string -> string, name: string)
    ensures norm(name) in mapping && mapping[norm(name)] != "" ==>
      Select(mapping, norm, [name]) == [mapping[norm(name)]]
    ensures norm(name) !in mapping || mapping[norm(name)] == "" ==>
      Select(mapping, norm, [name]) == []
  {
    assert [name][1..] == [];
  }

  /** Selection works name by name: the paths of a concatenation are the
      paths of each part, in order. With `SelectOne` this fixes the result
      for any mix of known and unknown names. */
  lemma {:induction false} SelectAppend(mapping: map<string, string>, norm: string -> string, a: seq<string>, b: seq<string>)
    ensures Select(mapping, norm, a + b) == Select(mapping, norm, a) + Select(mapping, norm, b)
  {
    if |a| == 0 {
      assert a + b == b;
    } else {
      assert (a + b)[0] == a[0];
      assert (a + b)[1..] == a[1..] + b;
      SelectAppend(mapping, norm, a[1..], b);
    }
  }

  /** An unknown name, or one mapped to an empty path, is dropped wherever it
      stands among the others; the rest keep their order. */
  lemma SelectDropsUnknown(mapping: map<string, string>, norm: string -> string, a: seq<string>, u: string, b: seq<string>)
    requires norm(u) !in mapping || mapping[norm(u)] == ""
    ensures Select(mapping, norm, a + [u] + b) == Select(mapping, norm, a) + Select(mapping, norm, b)
  {
    SelectAppend(mapping, norm, a + [u], b);
    SelectAppend(mapping, norm, a, [u]);
    SelectOne(mapping, norm, u);
  }

  /** A known name with a non-empty path contributes that path at its place. */
  lemma SelectKeepsKnown(mapping: map<string, string>, norm: string -> string, a: seq<string>, n: string, b: seq<string>)
    requires norm(n) in mapping && mapping[norm(n)] != ""
    ensures Select(mapping, norm, a + [n] + b) ==
      Select(mapping, norm, a) + [mapping[norm(n)]] + Select(mapping, norm, b)
  {
    SelectAppend(mapping, norm, a + [n], b);
    SelectAppend(mapping, norm, a, [n]);
    SelectOne(mapping, norm, n);
  }

  /** The first (at most) three elements. */
  function Take3<T>(s: seq<T>): (r: seq<T>)
    ensures |r| == if |s| <= 3 then |s| else 3
    ensures r <= s
  {
    if |s| <= 3 then s else s[..3]
  }

  /** `_parse_actions`: the default action when the reply holds no tag,
      otherwise the first three resolved paths (possibly none). */
  function ParseActions(mapping: map<string, string>, response: string): (r: seq<string>)
    ensures |r| <= 3
    ensures FindBrackets(response) == [] ==> r == [DefaultAction(mapping)]
    ensures FindBrackets(response) != [] ==> r == Take3(Resolved(mapping, FindBrackets(response)))
    ensures FindBrackets(response) != [] ==>
      forall k :: 0 <= k < |r| ==> r[k] != "" && r[k] in mapping.Values
  {
    var raw := FindBrackets(response);
    if raw == [] then [DefaultAction(mapping)]
    else
      Take3(Resolved(mapping, raw))
  }

  /** The paths of names all known under `norm`. */
  function Paths(mapping: map<string, string>, norm: string -> string, names: seq<string>): seq<string>
    requires forall k :: 0 <= k < |names| ==> norm(names[k]) in mapping
  {
    seq(|names|, k requires 0 <= k < |names| => mapping[norm(names[k])])
  }

  lemma {:induction false} SelectKnown(mapping: map<string, string>, norm: string -> string, names: seq<string>)
    requires forall k :: 0 <= k < |names| ==> norm(names[k]) in mapping && mapping[norm(names[k])] != ""
    ensures Select(mapping, norm, names) == Paths(mapping, norm, names)
  {
    if |names| > 0 {
      SelectKnown(mapping, norm, names[1..]);
      var ps := Paths(mapping, norm, names);
      var tail := Paths(mapping, norm, names[1..]);
      assert ps[1..] == tail by {
        forall k | 0 <= k < |tail| ensures ps[1..][k] == tail[k] {
          assert names[1..][k] == names[k + 1];
        }
      }
      assert ps == [ps[0]] + ps[1..];
    }
  }

  lemma {:induction false} SelectUnknown(mapping: map<string, string>, norm: string -> string, names: seq<string>)
    requires forall k :: 0 <= k < |names| ==> norm(names[k]) !in mapping
    ensures Select(mapping, norm, names) == []
  {
    if |names| > 0 {
      SelectUnknown(mapping, norm, names[1..]);
    }
  }

  /** A reply tagging known actions yields their paths, cut to three. */
  lemma ParseKnownActions(mapping: map<string, string>, names: seq<string>)
    requires |names| > 0
    requires forall k :: 0 <= k < |names| ==> |names[k]| > 0 && ']' !in names[k]
    requires forall k :: 0 <= k < |names| ==>
      Normalise(names[k]) in mapping && mapping[Normalise(names[k])] != ""
    ensures ParseActions(mapping, Bracketed(names)) == Take3(Paths(mapping, Normalise, names))
  {
    FindBracketsRoundTrip(names);
    SelectKnown(mapping, Normalise, names);
  }

  /** A reply whose tags are all unknown yields no action at all (not the
      default, which is reserved for a reply without tags). */
  lemma ParseUnknownActions(mapping: map<string, string>, names: seq<string>)
    requires |names| > 0
    requires forall k :: 0 <= k < |names| ==> |names[k]| > 0 && ']' !in names[k]
    requires forall k :: 0 <= k < |names| ==> Normalise(names[k]) !in mapping
    ensures ParseActions(mapping, Bracketed(names)) == []
  {
    FindBracketsRoundTrip(names);
    SelectUnknown(mapping, Normalise, names);
  }

  /** A reply mixing tags: an unknown tag between known ones is skipped and
      the known paths before and after it are kept in tag order, cut to the
      first three. */
  lemma ParseMixedActions(mapping: map<string, string>, a: seq<string>, u: string, b: seq<string>)
    requires forall k :: 0 <= k < |a + [u] + b| ==> |(a + [u] + b)[k]| > 0 && ']' !in (a + [u] + b)[k]
    requires Normalise(u) !in mapping
    ensures ParseActions(mapping, Bracketed(a + [u] + b)) ==
      Take3(Resolved(mapping, a) + Resolved(mapping, b))
  {
    FindBracketsRoundTrip(a + [u] + b);
    SelectDropsUnknown(mapping, Normalise, a, u, b);
  }

  // ---------------------------------------------------------------------
  // Reply clean-up: re.sub(r"</?STYLE>.*", "", text, flags=re.DOTALL).strip()

  const OpenTag: string := "<STYLE>"
  const CloseTag: string := "</STYLE>"

  /** A style tag, opening or closing, starts at position `p` of `s`. */
  predicate TagAt(s: string, p: nat) {
    p <= |s| && ((OpenTag <= s[p..]) || (CloseTag <= s[p..]))
  }

  /** Everything before the first style tag (all of `s` when there is none). */
  function CutAtTag(s: string): (r: string)
    ensures r <= s
    ensures forall p :: 0 <= p < |r| ==> !TagAt(s, p)
    ensures |r| < |s| ==> TagAt(s, |r|)
    decreases |s|
  {
    if |s| == 0 || TagAt(s, 0) then ""
    else
      TagAtTail(s);
      [s[0]] + CutAtTag(s[1..])
  }

  /** A tag position of `s` past its first character is one of its tail. */
  lemma TagAtTail(s: string)
    requires |s| > 0
    ensures forall p :: 0 < p <= |s| ==> (TagAt(s, p) <==> TagAt(s[1..], p - 1))
  {
    forall p | 0 < p <= |s| ensures TagAt(s, p) <==> TagAt(s[1..], p - 1) {
      assert s[p..] == s[1..][p - 1..];
    }
  }

  /** The reply shown and spoken: the text before the first style tag, stripped. */
  function TruncateReply(text: string): (r: string)
    ensures |r| <= |text|
  {
    Strip(CutAtTag(text))
  }

  /** For a reply in the prescribed `text</STYLE>situation</STYLE>` shape the
      spoken part is the stripped text. */
  lemma TruncateStyled(a: string, b: string)
    requires '<' !in a
    ensures TruncateReply(a + CloseTag + b) == Strip(a)
  {
    var s := a + CloseTag + b;
    var r := CutAtTag(s);
    assert s[|a|..] == CloseTag + b;
    assert TagAt(s, |a|);
    forall p | 0 <= p < |a| ensures !TagAt(s, p) {
      assert s[p] == a[p];
    }
    assert |r| == |a|;
    assert r == s[..|a|] == a;
  }

  /** A reply without `<` is only stripped. */
  lemma TruncateUntagged(a: string)
    requires '<' !in a
    ensures TruncateReply(a) == Strip(a)
  {
    var r := CutAtTag(a);
    forall p | 0 <= p < |a| ensures !TagAt(a, p) {
      assert a[p] != '<';
    }
    assert r == a;
  }

  // ---------------------------------------------------------------------
  // process_input

  /** The outcome of one `initiate_chat` under `asyncio.wait_for`: the content
      of the last message, or a timeout. */
  datatype Chat = Replied(content: string) | TimedOut

  /** The reply of `process_input` on a timeout. */
  const BusyReply: string := "系统繁忙，请稍候..."

  /** `process_input`: the text conversation, then the action conversation on
      its reply (only held when the first one answered); a timeout of either
      yields the default action and the busy reply. */
  function ProcessInput(mapping: map<string, string>, text: Chat, action: Chat): (r: (seq<string>, string))
    ensures text.TimedOut? || action.TimedOut? ==> r == ([DefaultAction(mapping)], BusyReply)
    ensures text.Replied? && action.Replied? ==>
      r.0 == ParseActions(mapping, action.content) && r.1 == TruncateReply(text.content)
    ensures |r.0| <= 3
  {
    match (text, action)
    case (Replied(t), Replied(a)) => (ParseActions(mapping, a), TruncateReply(t))
    case _ => ([DefaultAction(mapping)], BusyReply)
  }
}

=== FILE: clip_loader.dfy ===
/** Loading and stitching of motion clips (main.py `load_frames`).

    A clip file is abstracted to its parsed content: `None` stands for a file
    that is missing or cannot be parsed, `Some(ClipFile(..))` for one that
    was read. Frames are reduced to their joint maps; a frame without a
    `joints` entry has the empty map. */
module ClipLoader {
  import opened Maybe
  import opened Geometry

  const RightElbow: string := "right_elbow"
  const LeftElbow: string := "left_elbow"
  const RightShoulder: string := "right_shoulder"
  const LeftShoulder: string := "left_shoulder"

  /** Pixels by which `right_shoulder` is placed left of the shoulders' midpoint. */
  const ShoulderGap: real := 30.0
  /** Pixels by which main.py lowers both elbows. */
  const LoaderElbowDrop: real := 15.0

  /** One parsed clip file: its frames and, when present, `video_info.resolution`
      unpacked as `(w, h)`. */
  datatype ClipFile = ClipFile(frames: seq<Joints>, resolution: Option<(int, int)>)

  /** What `load_frames` returns: the stitched frames, the baseline pose
      (`init_joints`) and the canvas size of the last accepted clip. */
  datatype Loaded = Loaded(frames: seq<Joints>, baseline: Joints, w: int, h: int)

  function Last<T>(s: seq<T>): T
    requires |s| > 0
  {
    s[|s| - 1]
  }

  /** The pose-estimation corrections applied to every frame: each present
      elbow is lowered by `drop`, and when both shoulders are present the left
      one moves to their midpoint and the right one `ShoulderGap` left of it. */
  function Correct(j: Joints, drop: real): Joints {
    var j1 := if RightElbow in j then j[RightElbow := Point(j[RightElbow].x, j[RightElbow].y + drop)] else j;
    var j2 := if LeftElbow in j1 then j1[LeftElbow := Point(j1[LeftElbow].x, j1[LeftElbow].y + drop)] else j1;
    if RightShoulder in j2 && LeftShoulder in j2 then
      var mid := (j2[RightShoulder].x + j2[LeftShoulder].x) / 2.0;
      j2[RightShoulder := Point(mid - ShoulderGap, j2[RightShoulder].y)][LeftShoulder := Point(mid, j2[LeftShoulder].y)]
    else
      j2
  }

  /** Joint by joint, what `Correct` does to a frame. */
  lemma CorrectSpec(j: Joints, drop: real)
    ensures var r := Correct(j, drop);
      && r.Keys == j.Keys
      && (forall n :: n in j && n !in {RightElbow, LeftElbow, RightShoulder, LeftShoulder} ==> r[n] == j[n])
      && (RightElbow in j ==> r[RightElbow] == Point(j[RightElbow].x, j[RightElbow].y + drop))
      && (LeftElbow in j ==> r[LeftElbow] == Point(j[LeftElbow].x, j[LeftElbow].y + drop))
      && (RightShoulder in j && LeftShoulder in j ==>
            && r[LeftShoulder].x == (j[RightShoulder].x + j[LeftShoulder].x) / 2.0
            && r[RightShoulder].x == r[LeftShoulder].x - ShoulderGap
            && r[LeftShoulder].y == j[LeftShoulder].y
            && r[RightShoulder].y == j[RightShoulder].y)
      && (RightShoulder !in j || LeftShoulder !in j ==>
            (forall n :: n in j && n in {RightShoulder, LeftShoulder} ==> r[n] == j[n]))
  {
  }

  /** The corrections keep the joint set and never move the pelvis. */
  lemma CorrectKeepsPelvis(j: Joints, drop: real)
    ensures Correct(j, drop).Keys == j.Keys
    ensures Pelvis in j ==> Correct(j, drop)[Pelvis] == j[Pelvis]
  {
  }

  function CorrectAll(fs: seq<Joints>, drop: real): (r: seq<Joints>)
    ensures |r| == |fs|
    ensures forall i :: 0 <= i < |r| ==> r[i] == Correct(fs[i], drop)
  {
    seq(|fs|, i requires 0 <= i < |fs| => Correct(fs[i], drop))
  }

  /** The rigid translation used both to centre the first clip and to stitch a
      later clip: every joint of every frame moves by the one vector that takes
      frame 0's pelvis to `target`. */
  function AlignTo(fs: seq<Joints>, target: Point): (r: seq<Joints>)
    requires |fs| > 0 && Pelvis in fs[0]
    ensures |r| == |fs|
    ensures Pelvis in r[0] && r[0][Pelvis] == target
    ensures forall i :: 0 <= i < |r| ==> r[i].Keys == fs[i].Keys
    ensures forall i, n :: 0 <= i < |r| && n in fs[i] ==> Sub(r[i][n], fs[i][n]) == Sub(target, fs[0][Pelvis])
  {
    ShiftAll(fs, Sub(target, fs[0][Pelvis]))
  }

  /** Alignment is a rigid motion of every frame. */
  lemma AlignIsRigid(fs: seq<Joints>, target: Point)
    requires |fs| > 0 && Pelvis in fs[0]
    ensures forall i :: 0 <= i < |fs| ==> Rigid(AlignTo(fs, target)[i], fs[i])
  {
    forall i | 0 <= i < |fs| ensures Rigid(AlignTo(fs, target)[i], fs[i]) {
      ShiftIsRigid(fs[i], Sub(target, fs[0][Pelvis]));
    }
  }

  /** Alignment moves the whole clip by one vector. */
  lemma AlignTranslates(fs: seq<Joints>, target: Point)
    requires |fs| > 0 && Pelvis in fs[0]
    ensures Translated(AlignTo(fs, target), fs)
  {
    assert AlignTo(fs, target) == ShiftAll(fs, Sub(target, fs[0][Pelvis]));
  }

  /** Aligning an already aligned clip to the same target changes nothing; in
      particular centring is idempotent. */
  lemma AlignIdempotent(fs: seq<Joints>, target: Point)
    requires |fs| > 0 && Pelvis in fs[0]
    ensures AlignTo(AlignTo(fs, target), target) == AlignTo(fs, target)
  {
    var a := AlignTo(fs, target);
    var b := AlignTo(a, target);
    assert |b| == |a|;
    forall i | 0 <= i < |a| ensures b[i] == a[i] {
      assert b[i].Keys == a[i].Keys;
      forall n | n in a[i] ensures b[i][n] == a[i][n] {
        assert Sub(b[i][n], a[i][n]) == Point(0.0, 0.0);
      }
    }
  }

  /** The loop state of `load_frames` between two files. */
  datatype Acc = Acc(frames: seq<Joints>, baseline: Joints, first: bool, w: int, h: int)

  const Start: Acc := Acc([], map[], true, 0, 0)

  /** A clip contributes to the output: it was read and has frames. */
  predicate Accepted(src: Option<ClipFile>) {
    src.Some? && |src.value.frames| > 0
  }

  /** One iteration of the `load_frames` loop. */
  function Step(acc: Acc, src: Option<ClipFile>): Acc {
    if !Accepted(src) then acc
    else
      var (w, h) := src.value.resolution.GetOr((acc.w, acc.h));
      var cur := CorrectAll(src.value.frames, LoaderElbowDrop);
      if acc.first then
        if Pelvis in cur[0] then
          var c := AlignTo(cur, Centre(w, h));
          Acc(acc.frames + c, acc.baseline + c[0], false, w, h)
        else
          Acc(acc.frames + cur, acc.baseline, false, w, h)
      else if |acc.frames| > 0 && Pelvis in Last(acc.frames) && Pelvis in cur[0] then
        Acc(acc.frames + AlignTo(cur, Last(acc.frames)[Pelvis]), acc.baseline, false, w, h)
      else
        Acc(acc.frames + cur, acc.baseline, false, w, h)
  }

  /** The loop state after the first `|srcs|` files. */
  function Fold(srcs: seq<Option<ClipFile>>): Acc {
    if |srcs| == 0 then Start else Step(Fold(srcs[..|srcs| - 1]), Last(srcs))
  }

  /** The first frame with at least one joint, if any. */
  function FirstPosed(fs: seq<Joints>): (r: Option<Joints>)
    ensures r.Some? ==> r.value != map[]
    ensures r.Some? ==>
      exists i :: 0 <= i < |fs| && fs[i] == r.value && forall k :: 0 <= k < i ==> fs[k] == map[]
    ensures r.None? ==> forall i :: 0 <= i < |fs| ==> fs[i] == map[]
  {
    if |fs| == 0 then None
    else if fs[0] != map[] then Some(fs[0])
    else
      var r := FirstPosed(fs[1..]);
      assert forall i :: 1 <= i < |fs| ==> fs[i] == fs[1..][i - 1];
      if r.Some? then
        var i :| 0 <= i < |fs[1..]| && fs[1..][i] == r.value && forall k :: 0 <= k < i ==> fs[1..][k] == map[];
        assert fs[i + 1] == r.value && forall k :: 0 <= k < i + 1 ==> fs[k] == map[];
        r
      else r
  }

  /** The fallback after the loop: with no baseline yet, the first posed frame is used. */
  function Finish(acc: Acc): (r: Loaded)
    ensures r.frames == acc.frames && r.w == acc.w && r.h == acc.h
  {
    if acc.baseline == map[] && |acc.frames| > 0 then
      match FirstPosed(acc.frames)
      case Some(j) => Loaded(acc.frames, acc.baseline + j, acc.w, acc.h)
      case None => Loaded(acc.frames, acc.baseline, acc.w, acc.h)
    else
      Loaded(acc.frames, acc.baseline, acc.w, acc.h)
  }

  /** main.py `load_frames` over already-read clip files. */
  function LoadFrames(srcs: seq<Option<ClipFile>>): Loaded {
    Finish(Fold(srcs))
  }

  // ---------------------------------------------------------------------
  // Properties

  /** The clips that contribute frames, in input order. */
  function AcceptedClips(srcs: seq<Option<ClipFile>>): (r: seq<Option<ClipFile>>)
    ensures forall i :: 0 <= i < |r| ==> Accepted(r[i])
  {
    if |srcs| == 0 then []
    else if Accepted(Last(srcs)) then AcceptedClips(srcs[..|srcs| - 1]) + [Last(srcs)]
    else AcceptedClips(srcs[..|srcs| - 1])
  }

  /** The raw frames of the accepted clips, concatenated in input order. */
  function RawFrames(srcs: seq<Option<ClipFile>>): seq<Joints> {
    if |srcs| == 0 then []
    else if Accepted(Last(srcs)) then RawFrames(srcs[..|srcs| - 1]) + Last(srcs).value.frames
    else RawFrames(srcs[..|srcs| - 1])
  }

  /** Missing, unreadable and frame-less clips are skipped: loading the list is
      the same as loading only its accepted clips. */
  lemma {:induction false} SkipsUnusable(srcs: seq<Option<ClipFile>>)
    ensures Fold(AcceptedClips(srcs)) == Fold(srcs)
    ensures LoadFrames(AcceptedClips(srcs)) == LoadFrames(srcs)
  {
    if |srcs| > 0 {
      var init := srcs[..|srcs| - 1];
      SkipsUnusable(init);
      if Accepted(Last(srcs)) {
        var a := AcceptedClips(init) + [Last(srcs)];
        assert a[..|a| - 1] == AcceptedClips(init);
      }
    }
  }

  /** The loop state is always consistent: `first` holds exactly until some
      frame was appended, and the baseline is either unset or the first frame. */
  ghost predicate Consistent(acc: Acc) {
    && (acc.first <==> |acc.frames| == 0)
    && (acc.baseline == map[] || (|acc.frames| > 0 && acc.baseline == acc.frames[0]))
  }

  lemma StepConsistent(acc: Acc, src: Option<ClipFile>)
    requires Consistent(acc)
    ensures Consistent(Step(acc, src))
  {
    if Accepted(src) {
      var (w, h) := src.value.resolution.GetOr((acc.w, acc.h));
      var cur := CorrectAll(src.value.frames, LoaderElbowDrop);
      if acc.first && Pelvis in cur[0] {
        var c := AlignTo(cur, Centre(w, h));
        assert acc.frames + c == c;
        assert acc.baseline + c[0] == c[0];
      }
    }
  }

  lemma {:induction false} FoldConsistent(srcs: seq<Option<ClipFile>>)
    ensures Consistent(Fold(srcs))
  {
    if |srcs| > 0 {
      FoldConsistent(srcs[..|srcs| - 1]);
      StepConsistent(Fold(srcs[..|srcs| - 1]), Last(srcs));
    }
  }

  /** Each step only appends: earlier frames and a set baseline are never changed. */
  lemma {:induction false} FoldExtends(srcs: seq<Option<ClipFile>>, k: nat)
    requires k <= |srcs|
    ensures Fold(srcs[..k]).frames <= Fold(srcs).frames
    ensures Fold(srcs[..k]).baseline != map[] ==> Fold(srcs).baseline == Fold(srcs[..k]).baseline
  {
    if k < |srcs| {
      var init := srcs[..|srcs| - 1];
      assert init[..k] == srcs[..k];
      FoldExtends(init, k);
      FoldConsistent(init);
    } else {
      assert srcs[..k] == srcs;
    }
  }

  /** An accepted clip's frames are appended, each a rigid image of the
      corrected raw frame; earlier frames are untouched. */
  lemma StepAppendsRigid(acc: Acc, src: Option<ClipFile>)
    requires Accepted(src)
    ensures var out := Step(acc, src).frames;
      var cur := CorrectAll(src.value.frames, LoaderElbowDrop);
      && |out| == |acc.frames| + |cur|
      && out[..|acc.frames|] == acc.frames
      && Translated(out[|acc.frames|..], cur)
      && forall i :: 0 <= i < |cur| ==> Rigid(out[|acc.frames| + i], cur[i])
  {
    var cur := CorrectAll(src.value.frames, LoaderElbowDrop);
    var out := Step(acc, src).frames;
    var added := StepAdded(acc, src);
    assert out[|acc.frames|..] == added;
    forall i | 0 <= i < |cur| ensures Rigid(out[|acc.frames| + i], cur[i]) {
      assert out[|acc.frames| + i] == added[i];
    }
  }

  /** The frames one accepted clip adds: a translation of its corrected frames. */
  lemma StepAdded(acc: Acc, src: Option<ClipFile>) returns (added: seq<Joints>)
    requires Accepted(src)
    ensures var cur := CorrectAll(src.value.frames, LoaderElbowDrop);
      && Step(acc, src).frames == acc.frames + added
      && Translated(added, cur)
      && forall i :: 0 <= i < |cur| ==> Rigid(added[i], cur[i])
  {
    var (w, h) := src.value.resolution.GetOr((acc.w, acc.h));
    var cur := CorrectAll(src.value.frames, LoaderElbowDrop);
    if acc.first && Pelvis in cur[0] {
      added := AlignTo(cur, Centre(w, h));
      AlignIsRigid(cur, Centre(w, h));
      AlignTranslates(cur, Centre(w, h));
    } else if !acc.first && |acc.frames| > 0 && Pelvis in Last(acc.frames) && Pelvis in cur[0] {
      added := AlignTo(cur, Last(acc.frames)[Pelvis]);
      AlignIsRigid(cur, Last(acc.frames)[Pelvis]);
      AlignTranslates(cur, Last(acc.frames)[Pelvis]);
    } else {
      added := cur;
      ShiftAllZero(cur);
      assert cur == ShiftAll(cur, Point(0.0, 0.0));
      forall i | 0 <= i < |cur| ensures Rigid(cur[i], cur[i]) {
        ShiftIsRigid(cur[i], Point(0.0, 0.0));
      }
    }
  }

  /** The output holds as many frames as the accepted clips together; each
      output frame is a rigid translation of the corrected raw frame at the
      same position of the concatenated input; and each accepted clip is
      moved as a whole, by one vector for all its frames. */
  lemma {:induction false} LoadConcatenates(srcs: seq<Option<ClipFile>>)
    ensures |LoadFrames(srcs).frames| == |RawFrames(srcs)|
    ensures forall n :: 0 <= n < |RawFrames(srcs)| ==>
      Rigid(LoadFrames(srcs).frames[n], Correct(RawFrames(srcs)[n], LoaderElbowDrop))
    ensures forall k :: 0 <= k < |srcs| && Accepted(srcs[k]) ==>
      var lo := FrameCount(srcs[..k]);
      lo + |srcs[k].value.frames| <= |LoadFrames(srcs).frames| &&
      Translated(LoadFrames(srcs).frames[lo..lo + |srcs[k].value.frames|],
                 CorrectAll(srcs[k].value.frames, LoaderElbowDrop))
  {
    forall k | 0 <= k < |srcs| && Accepted(srcs[k])
      ensures var lo := FrameCount(srcs[..k]);
        lo + |srcs[k].value.frames| <= |LoadFrames(srcs).frames| &&
        Translated(LoadFrames(srcs).frames[lo..lo + |srcs[k].value.frames|],
                   CorrectAll(srcs[k].value.frames, LoaderElbowDrop))
    {
      ClipTranslated(srcs, k);
    }
    LoadRigid(srcs);
  }

  /** The frame-by-frame half of `LoadConcatenates`. */
  lemma LoadRigid(srcs: seq<Option<ClipFile>>)
    ensures |LoadFrames(srcs).frames| == |RawFrames(srcs)|
    ensures forall n :: 0 <= n < |RawFrames(srcs)| ==>
      Rigid(LoadFrames(srcs).frames[n], Correct(RawFrames(srcs)[n], LoaderElbowDrop))
  {
    FoldRigid(srcs);
  }

  lemma {:induction false} FoldRigid(srcs: seq<Option<ClipFile>>)
    ensures |Fold(srcs).frames| == |RawFrames(srcs)|
    ensures forall n :: 0 <= n < |RawFrames(srcs)| ==>
      Rigid(Fold(srcs).frames[n], Correct(RawFrames(srcs)[n], LoaderElbowDrop))
  {
    if |srcs| > 0 {
      var init := srcs[..|srcs| - 1];
      FoldRigid(init);
      var before := Fold(init).frames;
      var after := Fold(srcs).frames;
      if Accepted(Last(srcs)) {
        var raw := Last(srcs).value.frames;
        var cur := CorrectAll(raw, LoaderElbowDrop);
        assert && |after| == |before| + |cur|
               && after[..|before|] == before
               && forall i :: 0 <= i < |cur| ==> Rigid(after[|before| + i], cur[i]) by {
          StepAppendsRigid(Fold(init), Last(srcs));
        }
        AppendedRigid(before, after, RawFrames(init), raw);
      }
    }
  }

  /** Rigid copies of the corrected frames, extended by rigid copies of one
      more clip's corrected frames. */
  lemma AppendedRigid(before: seq<Joints>, after: seq<Joints>, rawBefore: seq<Joints>, raw: seq<Joints>)
    requires |before| == |rawBefore|
    requires forall n :: 0 <= n < |rawBefore| ==> Rigid(before[n], Correct(rawBefore[n], LoaderElbowDrop))
    requires |after| == |before| + |raw| && after[..|before|] == before
    requires forall i :: 0 <= i < |raw| ==>
      Rigid(after[|before| + i], CorrectAll(raw, LoaderElbowDrop)[i])
    ensures forall n :: 0 <= n < |rawBefore + raw| ==>
      Rigid(after[n], Correct((rawBefore + raw)[n], LoaderElbowDrop))
  {
    forall n | 0 <= n < |rawBefore + raw|
      ensures Rigid(after[n], Correct((rawBefore + raw)[n], LoaderElbowDrop))
    {
      if n >= |before| {
        var i := n - |before|;
        assert after[|before| + i] == after[n];
        assert (rawBefore + raw)[n] == raw[i];
        assert CorrectAll(raw, LoaderElbowDrop)[i] == Correct(raw[i], LoaderElbowDrop);
      } else {
        assert after[n] == after[..|before|][n];
        assert (rawBefore + raw)[n] == rawBefore[n];
      }
    }
  }

  /** Each accepted clip is moved as a whole: the output frames it gives,
      which start after the frames of the clips before it, are its corrected
      frames all shifted by one vector. */
  lemma ClipTranslated(srcs: seq<Option<ClipFile>>, k: nat)
    requires k < |srcs| && Accepted(srcs[k])
    ensures var out := LoadFrames(srcs).frames;
      var lo := FrameCount(srcs[..k]);
      var hi := lo + |srcs[k].value.frames|;
      && hi <= |out|
      && Translated(out[lo..hi], CorrectAll(srcs[k].value.frames, LoaderElbowDrop))
  {
    var pre := Fold(srcs[..k]).frames;
    var post := Fold(srcs[..k + 1]).frames;
    var cur := CorrectAll(srcs[k].value.frames, LoaderElbowDrop);
    assert post == Step(Fold(srcs[..k]), srcs[k]).frames by {
      assert srcs[..k + 1][..k] == srcs[..k];
      assert Last(srcs[..k + 1]) == srcs[k];
    }
    StepAppendsRigid(Fold(srcs[..k]), srcs[k]);
    FoldExtends(srcs, k + 1);
    LoadLength(srcs[..k]);
    TranslatedInside(LoadFrames(srcs).frames, pre, post, cur);
  }

  /** A clip appended after `pre`, inside a longer output, is found there. */
  lemma TranslatedInside(out: seq<Joints>, pre: seq<Joints>, post: seq<Joints>, cur: seq<Joints>)
    requires post <= out && |post| == |pre| + |cur| && Translated(post[|pre|..], cur)
    ensures Translated(out[|pre|..|pre| + |cur|], cur)
  {
    assert out[|pre|..|pre| + |cur|] == post[|pre|..];
  }

  /** Frame count: the sum of the accepted clips' frame counts. */
  function FrameCount(srcs: seq<Option<ClipFile>>): nat {
    if |srcs| == 0 then 0
    else FrameCount(srcs[..|srcs| - 1]) + (if Accepted(Last(srcs)) then |Last(srcs).value.frames| else 0)
  }

  lemma {:induction false} LoadLength(srcs: seq<Option<ClipFile>>)
    ensures |LoadFrames(srcs).frames| == FrameCount(srcs)
  {
    if |srcs| > 0 {
      LoadLength(srcs[..|srcs| - 1]);
    }
  }

  /** Frames come only from clip files: an empty list loads none. */
  lemma LoadNeedsClips(srcs: seq<Option<ClipFile>>)
    requires |LoadFrames(srcs).frames| > 0
    ensures |srcs| > 0
  {
    LoadLength(srcs);
  }

  /** The first accepted clip, when frame 0 has a pelvis, is centred: the
      output's frame-0 pelvis is the canvas centre of that clip's resolution,
      and the baseline is the centred frame 0. */
  lemma FirstClipCentred(srcs: seq<Option<ClipFile>>)
    requires |AcceptedClips(srcs)| > 0
    requires Pelvis in AcceptedClips(srcs)[0].value.frames[0]
    ensures var out := LoadFrames(srcs);
      var first := AcceptedClips(srcs)[0].value;
      var (w, h) := first.resolution.GetOr((0, 0));
      && |out.frames| > 0
      && Pelvis in out.frames[0]
      && out.frames[0][Pelvis] == Centre(w, h)
      && out.baseline == out.frames[0]
  {
    var a := AcceptedClips(srcs);
    SkipsUnusable(srcs);
    assert a[..1][..0] == [];
    assert Fold(a[..1]) == Step(Start, a[0]);
    FirstStepCentres(a[0]);
    FoldExtends(a, 1);
    var one := Fold(a[..1]);
    assert one.frames[0] == Fold(a).frames[0];
  }

  /** A single readable clip sets the canvas to its own resolution, or to
      (0, 0) when it has none. */
  lemma LoadOneCanvas(src: Option<ClipFile>)
    requires Accepted(src)
    ensures var out := LoadFrames([src]);
      (out.w, out.h) == src.value.resolution.GetOr((0, 0))
  {
    var srcs := [src];
    assert srcs[..0] == [];
    assert Fold(srcs) == Step(Start, src);
  }

  /** The canvas main.py lines 340 and 362-363 leave behind: the resolution of the
      last clip that has one, or (0, 0) when none has. */
  function LastResolution(clips: seq<Option<ClipFile>>): (int, int) {
    if |clips| == 0 then (0, 0)
    else if Last(clips).Some? && Last(clips).value.resolution.Some? then Last(clips).value.resolution.value
    else LastResolution(clips[..|clips| - 1])
  }

  /** The loaded canvas is the last resolution among the accepted clips:
      each accepted clip re-reads it, keeping the previous value when it
      gives none, and a skipped file never touches it. */
  lemma LoadCanvas(srcs: seq<Option<ClipFile>>)
    ensures (LoadFrames(srcs).w, LoadFrames(srcs).h) == LastResolution(AcceptedClips(srcs))
  {
    FoldCanvas(srcs);
  }

  lemma {:induction false} FoldCanvas(srcs: seq<Option<ClipFile>>)
    ensures (Fold(srcs).w, Fold(srcs).h) == LastResolution(AcceptedClips(srcs))
  {
    if |srcs| > 0 {
      var init := srcs[..|srcs| - 1];
      FoldCanvas(init);
      StepCanvas(Fold(init), Last(srcs));
      if Accepted(Last(srcs)) {
        var a := AcceptedClips(init) + [Last(srcs)];
        assert AcceptedClips(srcs) == a;
        assert a[..|a| - 1] == AcceptedClips(init);
      }
    }
  }

  /** One step sets the canvas from an accepted clip's resolution, keeping
      the previous one when the clip gives none. */
  lemma StepCanvas(acc: Acc, src: Option<ClipFile>)
    ensures Accepted(src) ==>
      (Step(acc, src).w, Step(acc, src).h) == src.value.resolution.GetOr((acc.w, acc.h))
    ensures !Accepted(src) ==> Step(acc, src) == acc
  {
  }

  lemma FirstStepCentres(src: Option<ClipFile>)
    requires Accepted(src) && Pelvis in src.value.frames[0]
    ensures var one := Step(Start, src);
      var (w, h) := src.value.resolution.GetOr((0, 0));
      && |one.frames| > 0
      && Pelvis in one.frames[0]
      && one.frames[0][Pelvis] == Centre(w, h)
      && one.baseline == one.frames[0]
  {
    var cur := CorrectAll(src.value.frames, LoaderElbowDrop);
    CorrectKeepsPelvis(src.value.frames[0], LoaderElbowDrop);
    assert Pelvis in cur[0];
    var (w, h) := src.value.resolution.GetOr((0, 0));
    var c := AlignTo(cur, Centre(w, h));
    assert [] + c == c;
    assert map[] + c[0] == c[0];
  }

  /** Stitch continuity: when the frames accumulated before clip `k` end with
      a pelvis and clip `k` is accepted with a pelvis in its first frame, the
      output frame where clip `k` begins has exactly that last pelvis. */
  lemma StitchContinuous(srcs: seq<Option<ClipFile>>, k: nat)
    requires k < |srcs| && Accepted(srcs[k]) && Pelvis in srcs[k].value.frames[0]
    requires |Fold(srcs[..k]).frames| > 0 && Pelvis in Last(Fold(srcs[..k]).frames)
    ensures var before := Fold(srcs[..k]).frames;
      var out := LoadFrames(srcs).frames;
      && |before| < |out|
      && Pelvis in out[|before|]
      && out[|before|][Pelvis] == Last(before)[Pelvis]
  {
    var before := Fold(srcs[..k]);
    FoldConsistent(srcs[..k]);
    assert srcs[..k + 1][..k] == srcs[..k];
    assert Last(srcs[..k + 1]) == srcs[k];
    CorrectKeepsPelvis(srcs[k].value.frames[0], LoaderElbowDrop);
    FoldExtends(srcs, k + 1);
  }

  /** A later clip lacking a pelvis at either side of the boundary is appended
      untranslated (only corrected). */
  lemma UnalignedAppended(acc: Acc, src: Option<ClipFile>)
    requires Accepted(src) && !acc.first
    requires |acc.frames| == 0 || Pelvis !in Last(acc.frames) || Pelvis !in src.value.frames[0]
    ensures Step(acc, src).frames == acc.frames + CorrectAll(src.value.frames, LoaderElbowDrop)
  {
    CorrectKeepsPelvis(src.value.frames[0], LoaderElbowDrop);
  }

  /** After the first accepted clip, a step never touches the baseline. */
  lemma StepAfterFirst(acc: Acc, src: Option<ClipFile>)
    requires !acc.first
    ensures !Step(acc, src).first && Step(acc, src).baseline == acc.baseline
  {
  }

  /** Once `first` is cleared it stays cleared and the baseline is final. */
  lemma {:induction false} FoldAfterFirst(srcs: seq<Option<ClipFile>>, k: nat)
    requires k <= |srcs| && !Fold(srcs[..k]).first
    ensures !Fold(srcs).first && Fold(srcs).baseline == Fold(srcs[..k]).baseline
  {
    if k < |srcs| {
      var init := srcs[..|srcs| - 1];
      assert init[..k] == srcs[..k];
      FoldAfterFirst(init, k);
      StepAfterFirst(Fold(init), Last(srcs));
    } else {
      assert srcs[..k] == srcs;
    }
  }

  /** When the first accepted clip has no pelvis in frame 0 (or there is no
      accepted clip), the loop leaves the baseline unset. */
  lemma UncentredBaseline(srcs: seq<Option<ClipFile>>)
    requires |AcceptedClips(srcs)| == 0 || Pelvis !in AcceptedClips(srcs)[0].value.frames[0]
    ensures Fold(srcs).baseline == map[]
  {
    var a := AcceptedClips(srcs);
    SkipsUnusable(srcs);
    if |a| > 0 {
      assert a[..1][..0] == [];
      assert Fold(a[..1]) == Step(Start, a[0]);
      CorrectKeepsPelvis(a[0].value.frames[0], LoaderElbowDrop);
      FoldAfterFirst(a, 1);
    }
  }

  /** The baseline is the first output frame that has any joint: the centred
      frame 0 when the first clip has a pelvis there, otherwise the fallback
      after the loop. It is empty exactly when no output frame has a joint. */
  lemma BaselineFallback(srcs: seq<Option<ClipFile>>)
    ensures var out := LoadFrames(srcs);
      out.baseline == FirstPosed(out.frames).GetOr(map[])
    ensures var out := LoadFrames(srcs);
      out.baseline == map[] <==> forall n :: 0 <= n < |out.frames| ==> out.frames[n] == map[]
  {
    var a := AcceptedClips(srcs);
    var out := LoadFrames(srcs);
    if |a| > 0 && Pelvis in a[0].value.frames[0] {
      FirstClipCentred(srcs);
      assert out.frames[0] != map[];
      assert FirstPosed(out.frames) == Some(out.frames[0]);
    } else {
      UncentredBaseline(srcs);
      match FirstPosed(Fold(srcs).frames)
      case Some(j) =>
        assert map[] + j == j;
      case None =>
    }
  }
}

=== FILE: frontend.dfy ===
/** The glue of main.py between the agent and the player: `process_and_enqueue`,
    which turns a transcript into a queued request, and the greedy line
    wrapping of the reply bubble. */
module Frontend {
  import opened Maybe
  import opened Text
  import Agent

  /** What `asyncio.run(dh_system.process_input(text))` gave back: its pair
      (with `None` standing for an action value that is not a list), or an
      exception. */
  datatype Outcome = Answered(acts: Option<seq<string>>, reply: string) | Raised

  /** One entry of `action_queue`: the actions to play and the reply to show. */
  datatype Request = Request(acts: seq<string>, reply: string)

  const NoSystemReply: string := "Agent系统似乎出了一些问题。"
  const FailureReply: string := "抱歉，我处理时遇到点麻烦。"

  /** `process_and_enqueue(text)`: the request it puts on the queue, or `None`
      when it puts nothing. `ready` is whether the agent system exists; `run`
      is the agent, applied to the stripped transcript. */
  function ProcessAndEnqueue(ready: bool, text: string, run: string -> Outcome): (r: Option<Request>)
    ensures !ready ==> r == Some(Request(["idle"], NoSystemReply))
    ensures ready ==> (r.None? <==> forall i :: 0 <= i < |text| ==> IsSpace(text[i]))
    ensures r.Some? ==> |r.value.acts| > 0
    ensures ready && r.Some? ==> match run(Strip(text))
      case Raised => r.value == Request(["idle"], FailureReply)
      case Answered(acts, reply) =>
        && r.value.reply == reply
        && (acts.Some? && |acts.value| > 0 ==> r.value.acts == acts.value)
        && (acts.None? || |acts.value| == 0 ==> r.value.acts == ["idle"])
  {
    if !ready then Some(Request(["idle"], NoSystemReply))
    else
      var t := Strip(text);
      if t == "" then None
      else
        match run(t)
        case Raised => Some(Request(["idle"], FailureReply))
        case Answered(acts, reply) =>
          if acts.Some? && acts.value != [] then Some(Request(acts.value, reply))
          else Some(Request(["idle"], reply))
  }

  /** The agent of digital_human_agents_v2.py as `run`: given the outcomes of
      its two conversations, a non-blank transcript becomes a request carrying
      the parsed actions (or `idle` when none resolved) and the cleaned reply,
      and a timeout becomes the default action with the busy reply. */
  lemma EnqueuesAgentAnswer(mapping: map<string, string>, text: string,
                            textChat: Agent.Chat, actionChat: Agent.Chat)
    requires exists i :: 0 <= i < |text| && !IsSpace(text[i])
    ensures var run := (t: string) =>
        var (acts, reply) := Agent.ProcessInput(mapping, textChat, actionChat); Answered(Some(acts), reply);
      var r := ProcessAndEnqueue(true, text, run);
      && r.Some?
      && (textChat.Replied? && actionChat.Replied? ==>
        var acts := Agent.ParseActions(mapping, actionChat.content);
        && r.value.acts == (if acts == [] then ["idle"] else acts)
        && r.value.reply == Agent.TruncateReply(textChat.content))
      && (textChat.TimedOut? || actionChat.TimedOut? ==>
        r.value == Request([Agent.DefaultAction(mapping)], Agent.BusyReply))
  {
  }

  // ---------------------------------------------------------------------
  // Reply wrapping (main.py, the loop over `text_reply`)

  /** The lines joined back together. */
  function Concat(lines: seq<string>): string {
    if |lines| == 0 then "" else Concat(lines[..|lines| - 1]) + lines[|lines| - 1]
  }

  /** A line fits when its rendered width is below the limit. */
  predicate Fits(line: string, width: string -> int, maxWidth: real) {
    (width(line) as real) < maxWidth
  }

  /** A finished line is the empty line the loop emits when the very first
      character is already too wide, a single character, or a line that fits. */
  predicate LineShape(lines: seq<string>, k: int, width: string -> int, maxWidth: real) {
    0 <= k < |lines| ==>
      (k == 0 && lines[k] == "") || |lines[k]| == 1 || Fits(lines[k], width, maxWidth)
  }

  /** Greedy: line `k` was closed because adding the first character of the
      next line would no longer have fitted. */
  predicate BrokeWhenFull(lines: seq<string>, k: int, width: string -> int, maxWidth: real) {
    0 <= k < |lines| - 1 ==>
      |lines[k + 1]| > 0 && (lines[k] == "" || !Fits(lines[k] + lines[k + 1][..1], width, maxWidth))
  }

  /** Every finished line has its shape, every break was forced, and only the
      first line may be empty. */
  predicate Wrapped(lines: seq<string>, width: string -> int, maxWidth: real) {
    && (forall k :: 0 <= k < |lines| ==> LineShape(lines, k, width, maxWidth))
    && (forall k :: 0 <= k < |lines| - 1 ==> BrokeWhenFull(lines, k, width, maxWidth))
    && (forall k :: 0 < k < |lines| ==> |lines[k]| > 0)
  }

  /** Closing a line keeps the lines wrapped, provided the line has its shape
      and the previous line could not take its first character. */
  lemma CloseLine(lines: seq<string>, cur: string, width: string -> int, maxWidth: real)
    requires Wrapped(lines, width, maxWidth)
    requires (|lines| == 0 && cur == "") || |cur| == 1 || Fits(cur, width, maxWidth)
    requires |lines| > 0 ==> |cur| > 0
    requires |lines| > 0 ==> lines[|lines| - 1] == "" || !Fits(lines[|lines| - 1] + cur[..1], width, maxWidth)
    ensures Wrapped(lines + [cur], width, maxWidth)
    ensures Concat(lines + [cur]) == Concat(lines) + cur
  {
    var next := lines + [cur];
    assert next[..|next| - 1] == lines;
    forall k | 0 <= k < |next| ensures LineShape(next, k, width, maxWidth) {
      if k < |lines| {
        assert LineShape(lines, k, width, maxWidth);
      }
    }
    forall k | 0 <= k < |next| - 1 ensures BrokeWhenFull(next, k, width, maxWidth) {
      if k < |lines| - 1 {
        assert BrokeWhenFull(lines, k, width, maxWidth);
      }
    }
  }

  /** The state of the wrapping loop after the first `i` characters: the
      finished lines and the current line spell them out, the current line
      has its shape, and the last finished line could not take the current
      line's first character. */
  predicate WrapState(text: string, i: int, lines: seq<string>, current: string,
                      width: string -> int, maxWidth: real) {
    && 0 <= i <= |text|
    && Concat(lines) + current == text[..i]
    && (i == 0 ==> lines == [] && current == "")
    && (i > 0 ==> |current| > 0 && (|current| == 1 || Fits(current, width, maxWidth)))
    && Wrapped(lines, width, maxWidth)
    && (|lines| > 0 ==> lines[|lines| - 1] == "" || !Fits(lines[|lines| - 1] + current[..1], width, maxWidth))
  }

  /** A character that still fits joins the current line. */
  lemma KeepChar(text: string, i: int, lines: seq<string>, current: string, width: string -> int, maxWidth: real)
    requires WrapState(text, i, lines, current, width, maxWidth) && i < |text|
    requires Fits(current + [text[i]], width, maxWidth)
    ensures WrapState(text, i + 1, lines, current + [text[i]], width, maxWidth)
  {
    assert text[..i + 1] == text[..i] + [text[i]];
    if |current| > 0 {
      assert (current + [text[i]])[..1] == current[..1];
    }
  }

  /** A character that does not fit closes the current line and starts the
      next one. */
  lemma BreakAtChar(text: string, i: int, lines: seq<string>, current: string, width: string -> int, maxWidth: real)
    requires WrapState(text, i, lines, current, width, maxWidth) && i < |text|
    requires !Fits(current + [text[i]], width, maxWidth)
    ensures WrapState(text, i + 1, lines + [current], [text[i]], width, maxWidth)
  {
    var c := text[i];
    var next := lines + [current];
    assert text[..i + 1] == text[..i] + [c];
    CloseLine(lines, current, width, maxWidth);
    assert next[|next| - 1] + [c][..1] == current + [c];
  }

  /** main.py's wrapping loop: each character is appended to the current line
      while the result stays below `maxWidth`, otherwise it starts a new line;
      the last non-empty line is kept. */
  method WrapReply(text: string, width: string -> int, maxWidth: real) returns (lines: seq<string>)
    ensures Concat(lines) == text
    ensures forall k :: 0 <= k < |lines| ==> LineShape(lines, k, width, maxWidth)
    ensures forall k :: 0 <= k < |lines| - 1 ==> BrokeWhenFull(lines, k, width, maxWidth)
    ensures forall k :: 0 < k < |lines| ==> |lines[k]| > 0
    ensures |text| > 0 ==> |lines| > 0 && |lines[|lines| - 1]| > 0
  {
    var current;
    lines, current := WrapLoop(text, width, maxWidth);
    if current != "" {
      CloseLast(text, lines, current, width, maxWidth);
      lines := lines + [current];
    }
  }

  /** The loop itself: the finished lines and the line still open after the
      last character. */
  method WrapLoop(text: string, width: string -> int, maxWidth: real) returns (lines: seq<string>, current: string)
    ensures WrapState(text, |text|, lines, current, width, maxWidth)
  {
    lines := [];
    current := "";
    var i := 0;
    while i < |text|
      invariant WrapState(text, i, lines, current, width, maxWidth)
    {
      var test := current + [text[i]];
      if Fits(test, width, maxWidth) {
        KeepChar(text, i, lines, current, width, maxWidth);
        current := test;
      } else {
        BreakAtChar(text, i, lines, current, width, maxWidth);
        lines := lines + [current];
        current := [text[i]];
      }
      i := i + 1;
    }
  }

  /** After the last character, the non-empty current line is the last line. */
  lemma CloseLast(text: string, lines: seq<string>, current: string, width: string -> int, maxWidth: real)
    requires WrapState(text, |text|, lines, current, width, maxWidth) && current != ""
    ensures Concat(lines + [current]) == text && Wrapped(lines + [current], width, maxWidth)
  {
    assert text[..|text|] == text;
    CloseLine(lines, current, width, maxWidth);
  }
}

=== FILE: geometry.dfy ===
/** Points and joint maps in canvas pixel space. Coordinates are exact reals;
    the source's floating-point rounding is not modelled. */
module Geometry {

  datatype Point = Point(x: real, y: real)

  /** A frame's joints: joint name to position. Any joint may be missing. */
  type Joints = map<string, Point>

  /** The root joint that anchors every clip. */
  const Pelvis: string := "pelvis"

  function Add(p: Point, d: Point): Point {
    Point(p.x + d.x, p.y + d.y)
  }

  function Sub(p: Point, q: Point): Point {
    Point(p.x - q.x, p.y - q.y)
  }

  /** Python's `n // 2`: Dafny's division rounds toward negative infinity for
      a positive divisor, as Python's floor division does. */
  function Half(n: int): int {
    n / 2
  }

  /** The canvas centre `(w // 2, h // 2)`. */
  function Centre(w: int, h: int): Point {
    Point(Half(w) as real, Half(h) as real)
  }

  /** Every present joint moved by `d`; no joint is added or dropped. */
  function Shift(j: Joints, d: Point): (r: Joints)
    ensures r.Keys == j.Keys
    ensures forall n :: n in r ==> r[n] == Add(j[n], d)
  {
    map n | n in j :: Add(j[n], d)
  }

  /** Every frame of a clip moved by the same `d`. */
  function ShiftAll(fs: seq<Joints>, d: Point): (r: seq<Joints>)
    ensures |r| == |fs|
    ensures forall i :: 0 <= i < |r| ==> r[i] == Shift(fs[i], d)
  {
    seq(|fs|, i requires 0 <= i < |fs| => Shift(fs[i], d))
  }

  /** `out` is the whole clip `src` moved by one common vector: the same
      translation for every joint of every frame, so the clip's path across
      the canvas is kept. */
  ghost predicate Translated(out: seq<Joints>, src: seq<Joints>) {
    exists d :: out == ShiftAll(src, d)
  }

  /** Shifting by the zero vector changes nothing. */
  lemma ShiftAllZero(fs: seq<Joints>)
    ensures ShiftAll(fs, Point(0.0, 0.0)) == fs
  {
    var r := ShiftAll(fs, Point(0.0, 0.0));
    forall i | 0 <= i < |fs| ensures r[i] == fs[i] {
      assert r[i].Keys == fs[i].Keys;
    }
  }

  /** `a` is `b` moved rigidly: same joints, same vector between any two joints. */
  ghost predicate Rigid(a: Joints, b: Joints) {
    && a.Keys == b.Keys
    && forall m, n :: m in a && n in a ==> Sub(a[m], a[n]) == Sub(b[m], b[n])
  }

  /** Shifting is a rigid motion: the vector between any two joints is kept. */
  lemma ShiftIsRigid(j: Joints, d: Point)
    ensures Rigid(Shift(j, d), j)
  {
  }

  /** Two shifts compose into one shift by the sum. */
  lemma ShiftCompose(j: Joints, d: Point, e: Point)
    ensures Shift(Shift(j, d), e) == Shift(j, Add(d, e))
  {
  }

  /** Rigidity is transitive, so chains of translations stay rigid. */
  lemma RigidTrans(a: Joints, b: Joints, c: Joints)
    requires Rigid(a, b) && Rigid(b, c)
    ensures Rigid(a, c)
  {
  }
}

=== FILE: maybe.dfy ===
/** Optional values and fallible results, used wherever the source tests a
    dictionary for a key, treats a value as "falsy", or raises. */
module Maybe {

  datatype Option<+T> = None | Some(value: T) {

    /** The wrapped value, or `default` when there is none (Python's `dict.get(k, default)`). */
    function GetOr(default: T): T {
      match this
      case Some(v) => v
      case None => default
    }
  }

  datatype Result<+T, +E> = Success(value: T) | Failure(error: E)
}

=== FILE: player.dfy ===
/** The animation player of main.py: resolving requested action names to clip
    files, the idle/action state machine run once per frame by `pygame_loop`,
    and where each frame's joints are drawn. */
module Player {
  import opened Maybe
  import opened Geometry
  import opened Text
  import ClipLoader
  import Frontend

  /** The files under the working directory: a key is an existing file; its
      value is the parsed clip, or `None` when it cannot be read. */
  type Files = map<string, Option<ClipFile>>
  type ClipFile = ClipLoader.ClipFile

  /** `ACTION_MAP`: request names to clip names under `actions/`. */
  const ActionMap: map<string, string> :=
    map["拱手礼" := "greet", "跳舞" := "dance", "常态" := "normal", "行礼" := "dun",
        "向前走" := "forward", "向后走" := "back", "空闲" := "idle"]

  /** The clip played while idle: `ACTION_MAP["空闲"]` under `actions/`. */
  const IdleClip: string := "actions/idle.json"

  // ---------------------------------------------------------------------
  // Paths (the parts of pathlib the resolution uses)

  /** The position of the last `c` in `s`, or -1. */
  function LastIndexOf(s: string, c: char): (r: int)
    ensures -1 <= r < |s|
    ensures r >= 0 ==> s[r] == c && forall k :: r < k < |s| ==> s[k] != c
    ensures r == -1 ==> forall k :: 0 <= k < |s| ==> s[k] != c
  {
    if |s| == 0 then -1
    else if s[|s| - 1] == c then |s| - 1
    else LastIndexOf(s[..|s| - 1], c)
  }

  /** The position of the last `c` in `s[lo..hi]`, counted in `s`, or -1. */
  function LastIndexIn(s: string, c: char, lo: int, hi: int): (r: int)
    requires 0 <= lo <= hi <= |s|
    ensures r == -1 || lo <= r < hi
    ensures r >= 0 ==> s[r] == c && forall k :: r < k < hi ==> s[k] != c
    ensures r == -1 ==> forall k :: lo <= k < hi ==> s[k] != c
    decreases hi - lo
  {
    if hi == lo then -1
    else if s[hi - 1] == c then hi - 1
    else LastIndexIn(s, c, lo, hi - 1)
  }

  /** Position `k` holds the last dot of the path's final component: no dot
      and no `/` follows it. */
  predicate LastDotOfName(path: string, k: int) {
    && 0 <= k < |path| && path[k] == '.'
    && forall m :: k < m < |path| ==> path[m] != '.' && path[m] != '/'
  }

  /** A dot at `k` that gives a suffix: it neither starts nor ends the final
      component. */
  predicate SuffixDot(path: string, k: int) {
    LastDotOfName(path, k) && 0 < k < |path| - 1 && path[k - 1] != '/'
  }

  /** `Path.suffix`: from the last dot of the final component, when that dot
      neither starts nor ends the component. */
  function Suffix(path: string): (r: string)
    ensures |r| <= |path| && r == path[|path| - |r|..]
    ensures r == "" || (|r| >= 2 && r[0] == '.' && '/' !in r && '.' !in r[1..])
    ensures forall k :: LastDotOfName(path, k) ==> r == if SuffixDot(path, k) then path[k..] else ""
    ensures (forall k :: 0 <= k < |path| ==> !LastDotOfName(path, k)) ==> r == ""
  {
    var slash := LastIndexOf(path, '/');
    var dot := LastIndexIn(path, '.', slash + 1, |path|);
    NameDot(path, slash, dot);
    if slash + 1 < dot < |path| - 1 then path[dot..] else ""
  }

  /** The last dot of the final component is the last dot after the last `/`. */
  lemma NameDot(path: string, slash: int, dot: int)
    requires slash == LastIndexOf(path, '/') && dot == LastIndexIn(path, '.', slash + 1, |path|)
    ensures dot >= 0 ==> LastDotOfName(path, dot)
    ensures forall k :: LastDotOfName(path, k) ==> k == dot
    ensures dot >= 0 ==> (SuffixDot(path, dot) <==> slash + 1 < dot < |path| - 1)
  {
    if dot >= 0 {
      DotAfterSlash(path, slash, dot);
    }
    forall k | LastDotOfName(path, k) ensures k == dot {
      SlashBeforeDot(path, slash, k);
    }
  }

  /** The last `/` of a path comes before the last dot of its final component. */
  lemma SlashBeforeDot(path: string, slash: int, k: int)
    requires slash == LastIndexOf(path, '/') && LastDotOfName(path, k)
    ensures slash < k
  {
    if slash >= 0 {
      assert path[slash] == '/';
    }
  }

  /** The last dot after the last `/` is the last dot of the final component;
      it gives a suffix exactly when it is neither the first nor the last
      character of that component. */
  lemma DotAfterSlash(path: string, slash: int, k: int)
    requires slash == LastIndexOf(path, '/') && k == LastIndexIn(path, '.', slash + 1, |path|) && k >= 0
    ensures LastDotOfName(path, k)
    ensures SuffixDot(path, k) <==> slash + 1 < k < |path| - 1
  {
    if k > slash + 1 {
      assert path[k - 1] != '/';
    } else if slash >= 0 {
      assert path[k - 1] == '/';
    }
  }

  /** `Path.parent != Path('.')`: the name has a directory part. */
  predicate HasParent(path: string) {
    '/' in path
  }

  /** `Path.with_suffix('.json')`: the suffix, if any, is replaced by `.json`. */
  function WithJsonSuffix(path: string): (r: string)
    ensures exists stem :: path == stem + Suffix(path) && r == stem + ".json"
    ensures Suffix(path) == "" ==> r == path + ".json"
  {
    var suffix := Suffix(path);
    var stem := path[..|path| - |suffix|];
    assert path == stem + suffix;
    stem + ".json"
  }

  /** `action_name.strip().strip("'\"")`. */
  function CleanName(name: string): string {
    Trim(Strip(name), IsQuote)
  }

  /** The file a cleaned action name stands for (main.py, the loop over
      `acts`): a `.json` name is used as is, a name with a directory gets the
      `.json` suffix, and a bare name is looked for as `actions/<name>.json`
      and then through `ACTION_MAP`. */
  function Candidate(files: Files, clean: string): Option<string> {
    if Lower(Suffix(clean)) == ".json" then Some(clean)
    else if HasParent(clean) then Some(WithJsonSuffix(clean))
    else
      var direct := "actions/" + clean + ".json";
      if direct in files then Some(direct)
      else if clean in ActionMap && ActionMap[clean] != "" then Some("actions/" + ActionMap[clean] + ".json")
      else None
  }

  /** One requested action resolved to an existing clip file; a candidate
      that does not exist is dropped, and an existing one is always used. */
  function ResolveAction(files: Files, name: string): (r: Option<string>)
    ensures r.Some? ==> r.value in files
    ensures r.Some? ==> r == Candidate(files, CleanName(name))
    ensures r.None? <==>
      Candidate(files, CleanName(name)).None? || Candidate(files, CleanName(name)).value !in files
  {
    var candidate := Candidate(files, CleanName(name));
    if candidate.Some? && candidate.value in files then candidate else None
  }

  /** The values `f` gives for the elements of `xs`, in order, skipping the
      elements it gives nothing for. */
  function Somes(f: string -> Option<string>, xs: seq<string>): (r: seq<string>)
    ensures |r| <= |xs|
    ensures forall k :: 0 <= k < |r| ==> exists i :: 0 <= i < |xs| && f(xs[i]) == Some(r[k])
  {
    if |xs| == 0 then []
    else
      var head := if f(xs[0]).Some? then [f(xs[0]).value] else [];
      var tail := Somes(f, xs[1..]);
      assert forall k :: 0 <= k < |tail| ==> exists i :: 0 <= i < |xs| && f(xs[i]) == Some(tail[k]) by {
        forall k | 0 <= k < |tail| ensures exists i :: 0 <= i < |xs| && f(xs[i]) == Some(tail[k]) {
          var i :| 0 <= i < |xs[1..]| && f(xs[1..][i]) == Some(tail[k]);
          assert xs[1..][i] == xs[i + 1];
        }
      }
      head + tail
  }

  lemma {:induction false} SomesAppend(f: string -> Option<string>, a: seq<string>, b: seq<string>)
    ensures Somes(f, a + b) == Somes(f, a) + Somes(f, b)
  {
    if |a| == 0 {
      assert a + b == b;
    } else {
      assert (a + b)[0] == a[0];
      assert (a + b)[1..] == a[1..] + b;
      SomesAppend(f, a[1..], b);
    }
  }

  /** Action-name resolution as a function of the name alone. */
  function Resolver(files: Files): string -> Option<string> {
    name => ResolveAction(files, name)
  }

  /** `json_list`: the resolved files of the request, in order. */
  function ResolveAll(files: Files, acts: seq<string>): (r: seq<string>)
    ensures |r| <= |acts|
    ensures forall k :: 0 <= k < |r| ==> r[k] in files
  {
    Somes(Resolver(files), acts)
  }

  /** A single requested name contributes its resolved file, or nothing. */
  lemma ResolveOne(files: Files, name: string)
    ensures ResolveAll(files, [name]) ==
      if ResolveAction(files, name).Some? then [ResolveAction(files, name).value] else []
  {
    SomesOne(Resolver(files), name);
    assert Resolver(files)(name) == ResolveAction(files, name);
  }

  /** A request resolves to no file exactly when none of its names resolves. */
  lemma ResolveAllEmpty(files: Files, acts: seq<string>)
    ensures ResolveAll(files, acts) == [] <==> forall k :: 0 <= k < |acts| ==> ResolveAction(files, acts[k]).None?
  {
    SomesEmpty(Resolver(files), acts);
    forall k | 0 <= k < |acts| ensures Resolver(files)(acts[k]) == ResolveAction(files, acts[k]) {
    }
  }

  lemma {:induction false} SomesEmpty(f: string -> Option<string>, xs: seq<string>)
    ensures Somes(f, xs) == [] <==> forall i :: 0 <= i < |xs| ==> f(xs[i]).None?
  {
    if |xs| > 0 {
      SomesEmpty(f, xs[1..]);
      assert forall i :: 1 <= i < |xs| ==> xs[1..][i - 1] == xs[i];
    }
  }

  lemma SomesOne(f: string -> Option<string>, x: string)
    ensures Somes(f, [x]) == if f(x).Some? then [f(x).value] else []
  {
    assert [x][1..] == [];
  }

  /** Names are resolved one by one: the files of a concatenated request are
      the files of each part, in request order. With `ResolveOne` this gives
      every existing candidate, in order, and nothing else. */
  lemma ResolveAllAppend(files: Files, a: seq<string>, b: seq<string>)
    ensures ResolveAll(files, a + b) == ResolveAll(files, a) + ResolveAll(files, b)
  {
    SomesAppend(Resolver(files), a, b);
  }

  /** The clip contents `load_frames` reads for the resolved files. */
  function Sources(files: Files, paths: seq<string>): (r: seq<Option<ClipFile>>)
    requires forall k :: 0 <= k < |paths| ==> paths[k] in files
    ensures |r| == |paths|
    ensures forall k :: 0 <= k < |r| ==> r[k] == files[paths[k]]
  {
    seq(|paths|, k requires 0 <= k < |paths| => files[paths[k]])
  }

  // ---------------------------------------------------------------------
  // The player state

  datatype Mode = Idle | Playing

  /** The loop variables of `pygame_loop` that the animation depends on:
      `state`, `idle_idx`, `action_idx`, `action_frames`,
      `action_initial_joints`, `last_pelvis_abs` (the anchor),
      `current_offset` and `text_reply`. */
  datatype State = State(mode: Mode, idleIdx: int, actionIdx: int,
                         actionFrames: seq<Joints>, actionBaseline: Joints,
                         anchor: Point, offset: Point, reply: string)

  /** What the loop fixes at start-up: the loaded idle clip and the files. */
  datatype Config = Config(idle: ClipLoader.Loaded, files: Files)

  /** The outcome of one pass of the loop: the new state, the queue after it
      and the joints handed to the renderer (`None` when the pass ends early). */
  datatype Pass = Pass(state: State, queue: seq<Frontend.Request>, shown: Option<Joints>)

  const UnknownActionReply: string := "我好像不认识这个动作。"
  const CannotMoveReply: string := "抱歉，我好像动不了了。"

  /** `d.get(k, default)` on joints. */
  function Get(j: Joints, k: string, default: Point): (r: Point)
    ensures k in j ==> r == j[k]
    ensures k !in j ==> r == default
  {
    if k in j then j[k] else default
  }

  /** The indices the loop reads are in range. */
  predicate Valid(cfg: Config, s: State) {
    && |cfg.idle.frames| > 0
    && 0 <= s.idleIdx < |cfg.idle.frames|
    && (s.mode == Playing && |s.actionFrames| > 0 ==> 0 <= s.actionIdx < |s.actionFrames|)
  }

  /** The state between two passes: valid, a playing action has frames, and
      the anchor is where the action's last frame puts the pelvis. */
  predicate Steady(cfg: Config, s: State) {
    && Valid(cfg, s)
    && (s.mode == Playing ==> |s.actionFrames| > 0)
    && (s.mode == Playing && Pelvis in s.actionFrames[|s.actionFrames| - 1] ==>
          s.anchor == Add(s.actionFrames[|s.actionFrames| - 1][Pelvis], s.offset))
  }

  /** The offset that puts the idle clip's baseline pelvis on the anchor. */
  function IdleOffset(cfg: Config, anchor: Point): (r: Point)
    ensures Add(Get(cfg.idle.baseline, Pelvis, Centre(cfg.idle.w, cfg.idle.h)), r) == anchor
  {
    Sub(anchor, Get(cfg.idle.baseline, Pelvis, Centre(cfg.idle.w, cfg.idle.h)))
  }

  /** Starting a loaded action (main.py lines 640-659): its baseline pelvis
      (or the centre of its canvas) is put on the anchor, and the anchor moves
      to where its last frame will put the pelvis; without a pelvis there it
      stays where it was. */
  function StartAction(s: State, loaded: ClipLoader.Loaded, reply: string): (r: State)
    requires |loaded.frames| > 0
    ensures r.mode == Playing && r.actionIdx == 0 && r.actionFrames == loaded.frames
    ensures Add(Get(loaded.baseline, Pelvis, Centre(loaded.w, loaded.h)), r.offset) == s.anchor
    ensures Pelvis in loaded.frames[|loaded.frames| - 1] ==>
      r.anchor == Add(loaded.frames[|loaded.frames| - 1][Pelvis], r.offset)
    ensures Pelvis !in loaded.frames[|loaded.frames| - 1] ==> r.anchor == s.anchor
  {
    var rawStart := Get(loaded.baseline, Pelvis, Centre(loaded.w, loaded.h));
    var off := Sub(s.anchor, rawStart);
    var lastRel := Get(loaded.frames[|loaded.frames| - 1], Pelvis, rawStart);
    State(Playing, s.idleIdx, 0, loaded.frames, loaded.baseline, Add(lastRel, off), off, reply)
  }

  /** The first half of a pass (main.py lines 597-674): when idle, take the
      next request, resolve its actions and start them. */
  function Dequeue(cfg: Config, s: State, queue: seq<Frontend.Request>): (r: (State, seq<Frontend.Request>))
    ensures s.mode == Playing || |queue| == 0 ==> r == (s, queue)
    ensures s.mode == Idle && |queue| > 0 ==> r.1 == queue[1..]
  {
    if s.mode == Playing || |queue| == 0 then (s, queue)
    else
      var req := queue[0];
      var jsonList := ResolveAll(cfg.files, req.acts);
      if |jsonList| > 0 then
        var loaded := ClipLoader.LoadFrames(Sources(cfg.files, jsonList));
        if |loaded.frames| > 0 then
          (StartAction(s, loaded, req.reply), queue[1..])
        else
          (s.(mode := Idle, idleIdx := 0, reply := CannotMoveReply), queue[1..])
      else if |req.acts| > 0 then
        (s.(reply := UnknownActionReply), queue[1..])
      else
        (s.(reply := req.reply), queue[1..])
  }

  /** The second half of a pass (main.py lines 676-722): show the current
      frame of the idle loop or of the action, moved by the current offset. */
  function Advance(cfg: Config, s: State): (r: (State, Option<Joints>))
    requires Valid(cfg, s)
    ensures Valid(cfg, r.0)
    ensures r.0.anchor == s.anchor
  {
    match s.mode
    case Idle =>
      var off := IdleOffset(cfg, s.anchor);
      var frame := cfg.idle.frames[s.idleIdx];
      (s.(idleIdx := (s.idleIdx + 1) % |cfg.idle.frames|, offset := off), Some(Shift(frame, off)))
    case Playing =>
      if |s.actionFrames| == 0 then
        (s.(mode := Idle, idleIdx := 0), None)
      else
        var frame := s.actionFrames[s.actionIdx];
        var next := s.actionIdx + 1;
        var t := if next >= |s.actionFrames| then s.(mode := Idle, idleIdx := 0, actionIdx := next)
                 else s.(actionIdx := next);
        (t, Some(Shift(frame, s.offset)))
  }

  /** One pass of the loop after the events are handled. */
  function Tick(cfg: Config, s: State, queue: seq<Frontend.Request>): (r: Pass)
    requires Valid(cfg, s)
    ensures Valid(cfg, r.state)
  {
    var (s1, q1) := Dequeue(cfg, s, queue);
    DequeueKeepsValid(cfg, s, queue);
    var (s2, shown) := Advance(cfg, s1);
    Pass(s2, q1, shown)
  }

  lemma DequeueKeepsValid(cfg: Config, s: State, queue: seq<Frontend.Request>)
    requires Valid(cfg, s)
    ensures Valid(cfg, Dequeue(cfg, s, queue).0)
  {
  }

  /** A pass is a dequeue followed by an advance. */
  lemma TickSteps(cfg: Config, s: State, queue: seq<Frontend.Request>, s1: State, q1: seq<Frontend.Request>)
    requires Valid(cfg, s) && Dequeue(cfg, s, queue) == (s1, q1)
    ensures Valid(cfg, s1)
    ensures Tick(cfg, s, queue) == Pass(Advance(cfg, s1).0, q1, Advance(cfg, s1).1)
  {
    DequeueKeepsValid(cfg, s, queue);
  }

  /** main.py lines 427-516: the idle clip must exist and load; the figure
      starts idle, with the idle baseline pelvis (or the origin) moved to the
      centre and the anchor on the idle clip's last pelvis (or the centre). */
  function Startup(files: Files): (r: Option<(Config, State)>)
    ensures r.Some? ==> Steady(r.value.0, r.value.1) && r.value.1.mode == Idle && r.value.1.idleIdx == 0
    ensures r.Some? <==> IdleClip in files && |ClipLoader.LoadFrames([files[IdleClip]]).frames| > 0
    ensures r.Some? ==>
      var (cfg, s) := r.value;
      && cfg.idle == ClipLoader.LoadFrames([files[IdleClip]]) && cfg.files == files
      && s.actionFrames == [] && s.reply == ""
      && Add(Get(cfg.idle.baseline, Pelvis, Point(0.0, 0.0)), s.offset) == Centre(cfg.idle.w, cfg.idle.h)
      && var last := cfg.idle.frames[|cfg.idle.frames| - 1];
         s.anchor == if Pelvis in last then Add(last[Pelvis], s.offset) else Centre(cfg.idle.w, cfg.idle.h)
  {
    if IdleClip !in files then None
    else
      var idle := ClipLoader.LoadFrames([files[IdleClip]]);
      if |idle.frames| == 0 then None
      else
        var centre := Centre(idle.w, idle.h);
        var offset := Sub(centre, Get(idle.baseline, Pelvis, Point(0.0, 0.0)));
        var last := idle.frames[|idle.frames| - 1];
        var anchor := if Pelvis in last then Add(last[Pelvis], offset) else centre;
        Some((Config(idle, files), State(Idle, 0, 0, [], map[], anchor, offset, "")))
  }

  // ---------------------------------------------------------------------
  // Properties of the loop

  /** Every pass keeps the state steady. */
  lemma TickKeepsSteady(cfg: Config, s: State, queue: seq<Frontend.Request>)
    requires Steady(cfg, s)
    ensures Steady(cfg, Tick(cfg, s, queue).state)
  {
    DequeueKeepsSteady(cfg, s, queue);
    AdvanceKeepsSteady(cfg, Dequeue(cfg, s, queue).0);
  }

  lemma DequeueKeepsSteady(cfg: Config, s: State, queue: seq<Frontend.Request>)
    requires Steady(cfg, s)
    ensures Steady(cfg, Dequeue(cfg, s, queue).0)
  {
    if s.mode == Idle && |queue| > 0 {
      var req := queue[0];
      var jsonList := ResolveAll(cfg.files, req.acts);
      if |jsonList| > 0 {
        var loaded := ClipLoader.LoadFrames(Sources(cfg.files, jsonList));
        if |loaded.frames| > 0 {
          assert Dequeue(cfg, s, queue).0 == StartAction(s, loaded, req.reply);
          StartedSteady(cfg, s, loaded, req.reply);
        } else {
          assert Dequeue(cfg, s, queue).0 == s.(mode := Idle, idleIdx := 0, reply := CannotMoveReply);
        }
      } else if |req.acts| > 0 {
        assert Dequeue(cfg, s, queue).0 == s.(reply := UnknownActionReply);
      } else {
        assert Dequeue(cfg, s, queue).0 == s.(reply := req.reply);
      }
    }
  }

  lemma StartedSteady(cfg: Config, s: State, loaded: ClipLoader.Loaded, reply: string)
    requires Valid(cfg, s) && |loaded.frames| > 0
    ensures Steady(cfg, StartAction(s, loaded, reply))
  {
  }

  lemma AdvanceKeepsSteady(cfg: Config, s: State)
    requires Steady(cfg, s)
    ensures Steady(cfg, Advance(cfg, s).0)
  {
  }

  /** A request is taken only while idle, one per pass, in queue order. */
  lemma TickQueue(cfg: Config, s: State, queue: seq<Frontend.Request>)
    requires Valid(cfg, s)
    ensures var q := Tick(cfg, s, queue).queue;
      q == if s.mode == Idle && |queue| > 0 then queue[1..] else queue
  {
  }

  /** An idle pass without a request shows the current idle frame with the
      idle baseline pelvis on the anchor, and steps the idle loop round. */
  lemma IdleTick(cfg: Config, s: State)
    requires Valid(cfg, s) && s.mode == Idle
    ensures var p := Tick(cfg, s, []);
      && p.state.mode == Idle
      && p.state.idleIdx == (s.idleIdx + 1) % |cfg.idle.frames|
      && p.state.anchor == s.anchor
      && p.shown == Some(Shift(cfg.idle.frames[s.idleIdx], IdleOffset(cfg, s.anchor)))
  {
  }

  /** A playing pass shows the current action frame at the action's offset
      and moves on; after the last frame the loop returns to idle from the
      start of the idle clip. The queue is left alone. */
  lemma PlayingTick(cfg: Config, s: State, queue: seq<Frontend.Request>)
    requires Steady(cfg, s) && s.mode == Playing
    ensures var p := Tick(cfg, s, queue);
      && p.queue == queue
      && p.state.anchor == s.anchor
      && p.shown == Some(Shift(s.actionFrames[s.actionIdx], s.offset))
      && (s.actionIdx + 1 < |s.actionFrames| ==>
            p.state.mode == Playing && p.state.actionIdx == s.actionIdx + 1 && p.state.offset == s.offset)
      && (s.actionIdx + 1 == |s.actionFrames| ==> p.state.mode == Idle && p.state.idleIdx == 0)
  {
  }

  /** A request none of whose actions resolves leaves the figure idle where
      it is and answers that the action is unknown. */
  lemma UnknownRequest(cfg: Config, s: State, req: Frontend.Request, rest: seq<Frontend.Request>)
    requires Valid(cfg, s) && s.mode == Idle
    requires |req.acts| > 0 && ResolveAll(cfg.files, req.acts) == []
    ensures var p := Tick(cfg, s, [req] + rest);
      && p.queue == rest
      && p.state.mode == Idle
      && p.state.anchor == s.anchor
      && p.state.reply == UnknownActionReply
      && p.shown == Some(Shift(cfg.idle.frames[s.idleIdx], IdleOffset(cfg, s.anchor)))
  {
    var q := [req] + rest;
    var s1 := s.(reply := UnknownActionReply);
    assert q[0] == req && q[1..] == rest;
    DequeueUnknown(cfg, s, q);
    TickSteps(cfg, s, q, s1, rest);
    IdleAdvance(cfg, s1);
  }

  /** An idle pass with a request none of whose actions resolves only answers. */
  lemma DequeueUnknown(cfg: Config, s: State, q: seq<Frontend.Request>)
    requires s.mode == Idle && |q| > 0
    requires |q[0].acts| > 0 && ResolveAll(cfg.files, q[0].acts) == []
    ensures Dequeue(cfg, s, q) == (s.(reply := UnknownActionReply), q[1..])
  {
  }

  /** An idle pass with a request whose files load no frame restarts idling. */
  lemma DequeueEmptyLoad(cfg: Config, s: State, q: seq<Frontend.Request>)
    requires s.mode == Idle && |q| > 0
    requires var jsonList := ResolveAll(cfg.files, q[0].acts);
      |jsonList| > 0 && |ClipLoader.LoadFrames(Sources(cfg.files, jsonList)).frames| == 0
    ensures Dequeue(cfg, s, q) == (s.(mode := Idle, idleIdx := 0, reply := CannotMoveReply), q[1..])
  {
  }

  /** Only starting a loaded action moves the anchor when a request is taken. */
  lemma DequeueAnchor(cfg: Config, s: State, q: seq<Frontend.Request>)
    ensures Dequeue(cfg, s, q).0.anchor != s.anchor ==>
      && s.mode == Idle && |q| > 0
      && var jsonList := ResolveAll(cfg.files, q[0].acts);
         |jsonList| > 0 && |ClipLoader.LoadFrames(Sources(cfg.files, jsonList)).frames| > 0
  {
  }

  /** An idle advance shows the current idle frame around the anchor. */
  lemma IdleAdvance(cfg: Config, s: State)
    requires Valid(cfg, s) && s.mode == Idle
    ensures Advance(cfg, s).0.mode == Idle
    ensures Advance(cfg, s).0.reply == s.reply
    ensures Advance(cfg, s).0.anchor == s.anchor
    ensures Advance(cfg, s).0.idleIdx == (s.idleIdx + 1) % |cfg.idle.frames|
    ensures Advance(cfg, s).1 == Some(Shift(cfg.idle.frames[s.idleIdx], IdleOffset(cfg, s.anchor)))
  {
  }

  /** A request whose files load no frame restarts the idle loop and answers
      that the figure cannot move. */
  lemma EmptyLoad(cfg: Config, s: State, req: Frontend.Request, rest: seq<Frontend.Request>)
    requires Valid(cfg, s) && s.mode == Idle
    requires var jsonList := ResolveAll(cfg.files, req.acts);
      |jsonList| > 0 && |ClipLoader.LoadFrames(Sources(cfg.files, jsonList)).frames| == 0
    ensures var p := Tick(cfg, s, [req] + rest);
      && p.queue == rest
      && p.state.mode == Idle
      && p.state.anchor == s.anchor
      && p.state.reply == CannotMoveReply
      && p.shown == Some(Shift(cfg.idle.frames[0], IdleOffset(cfg, s.anchor)))
  {
    var q := [req] + rest;
    var s1 := s.(mode := Idle, idleIdx := 0, reply := CannotMoveReply);
    assert q[0] == req && q[1..] == rest;
    DequeueEmptyLoad(cfg, s, q);
    TickSteps(cfg, s, q, s1, rest);
    IdleAdvance(cfg, s1);
  }

  /** Position of the pelvis in shown joints. */
  function ShownPelvis(shown: Option<Joints>): Option<Point> {
    if shown.Some? && Pelvis in shown.value then Some(shown.value[Pelvis]) else None
  }

  /** A request that loads starts playing in the same pass, and when the first
      clip read has a pelvis in its first frame, that frame shows the pelvis
      exactly on the anchor the idle loop was using. */
  lemma ActionStartsOnAnchor(cfg: Config, s: State, req: Frontend.Request, rest: seq<Frontend.Request>)
    requires Valid(cfg, s) && s.mode == Idle
    requires var srcs := Sources(cfg.files, ResolveAll(cfg.files, req.acts));
      var clips := ClipLoader.AcceptedClips(srcs);
      |clips| > 0 && Pelvis in clips[0].value.frames[0]
    ensures var p := Tick(cfg, s, [req] + rest);
      var loaded := ClipLoader.LoadFrames(Sources(cfg.files, ResolveAll(cfg.files, req.acts)));
      && p.queue == rest
      && p.state.actionFrames == loaded.frames
      && (|loaded.frames| > 1 ==> p.state.mode == Playing && p.state.actionIdx == 1)
      && p.state.reply == req.reply
      && ShownPelvis(p.shown) == Some(s.anchor)
  {
    var q := [req] + rest;
    var jsonList := ResolveAll(cfg.files, req.acts);
    var srcs := Sources(cfg.files, jsonList);
    var loaded := ClipLoader.LoadFrames(srcs);
    assert |loaded.frames| > 0 && Pelvis in loaded.frames[0] && loaded.baseline == loaded.frames[0] by {
      ClipLoader.FirstClipCentred(srcs);
    }
    var s1 := StartAction(s, loaded, req.reply);
    assert q[0] == req && q[1..] == rest;
    DequeueStarts(cfg, s, q);
    TickSteps(cfg, s, q, s1, rest);
    StartShowsAnchor(cfg, s, loaded, req.reply);
  }

  /** An idle pass with a request that loads frames starts it. */
  lemma DequeueStarts(cfg: Config, s: State, q: seq<Frontend.Request>)
    requires s.mode == Idle && |q| > 0
    requires var loaded := ClipLoader.LoadFrames(Sources(cfg.files, ResolveAll(cfg.files, q[0].acts)));
      |loaded.frames| > 0
    ensures var loaded := ClipLoader.LoadFrames(Sources(cfg.files, ResolveAll(cfg.files, q[0].acts)));
      Dequeue(cfg, s, q) == (StartAction(s, loaded, q[0].reply), q[1..])
  {
    ClipLoader.LoadNeedsClips(Sources(cfg.files, ResolveAll(cfg.files, q[0].acts)));
  }

  /** The first advance after starting an action whose first frame is its
      baseline shows the pelvis on the previous anchor. */
  lemma StartShowsAnchor(cfg: Config, s: State, loaded: ClipLoader.Loaded, reply: string)
    requires Valid(cfg, s) && |loaded.frames| > 0
    requires Pelvis in loaded.frames[0] && loaded.baseline == loaded.frames[0]
    ensures var s1 := StartAction(s, loaded, reply);
      var a := Advance(cfg, s1);
      && a.0.actionFrames == loaded.frames
      && (|loaded.frames| > 1 ==> a.0.mode == Playing && a.0.actionIdx == 1)
      && a.0.reply == reply
      && ShownPelvis(a.1) == Some(s.anchor)
  {
    var s1 := StartAction(s, loaded, reply);
    assert Get(loaded.baseline, Pelvis, Centre(loaded.w, loaded.h)) == loaded.frames[0][Pelvis];
    assert Add(loaded.frames[0][Pelvis], s1.offset) == s.anchor;
  }

  /** The anchor moves only in a pass that starts a loaded action. */
  lemma AnchorMovesOnlyOnStart(cfg: Config, s: State, queue: seq<Frontend.Request>)
    requires Valid(cfg, s)
    ensures var p := Tick(cfg, s, queue);
      p.state.anchor != s.anchor ==>
        && s.mode == Idle && |queue| > 0
        && var jsonList := ResolveAll(cfg.files, queue[0].acts);
           |jsonList| > 0 && |ClipLoader.LoadFrames(Sources(cfg.files, jsonList)).frames| > 0
  {
    DequeueAnchor(cfg, s, queue);
    DequeueKeepsValid(cfg, s, queue);
  }

  /** The seam from an action back to idle: the action's last frame shows the
      pelvis on the anchor, and when no request is waiting the next pass
      restarts the idle clip with its first pelvis on the same spot, provided
      that first pelvis is the idle baseline's (as loading guarantees). */
  lemma ActionHandsOverToIdle(cfg: Config, s: State, queue: seq<Frontend.Request>)
    requires Steady(cfg, s) && s.mode == Playing && s.actionIdx == |s.actionFrames| - 1
    requires Pelvis in s.actionFrames[s.actionIdx]
    requires Pelvis in cfg.idle.frames[0] && Pelvis in cfg.idle.baseline
    requires cfg.idle.frames[0][Pelvis] == cfg.idle.baseline[Pelvis]
    ensures var p1 := Tick(cfg, s, queue);
      var p2 := Tick(cfg, p1.state, []);
      && p1.state.mode == Idle && p1.state.idleIdx == 0
      && ShownPelvis(p1.shown) == Some(s.anchor)
      && ShownPelvis(p2.shown) == Some(s.anchor)
  {
    var p1 := Tick(cfg, s, queue);
    PlayingTick(cfg, s, queue);
    IdleTick(cfg, p1.state);
  }

  /** The idle clip loaded at start-up begins with its pelvis on the centre of
      its canvas when its first frame has a pelvis, so the start-up offset is
      zero and the idle loop restarts exactly where the seam expects it. */
  lemma StartupCentred(files: Files)
    requires IdleClip in files && files[IdleClip].Some?
    requires |files[IdleClip].value.frames| > 0 && Pelvis in files[IdleClip].value.frames[0]
    ensures var r := Startup(files);
      && r.Some?
      && var (cfg, s) := r.value;
         && Pelvis in cfg.idle.frames[0] && cfg.idle.baseline == cfg.idle.frames[0]
         && s.offset == Point(0.0, 0.0)
  {
    var src := files[IdleClip];
    var idle := ClipLoader.LoadFrames([src]);
    IdleLoadCentred(src);
    var r := Startup(files);
    assert r.Some?;
    var (cfg, s) := r.value;
    assert cfg.idle == idle;
    ZeroOffset(idle);
    assert s.offset == Sub(Centre(idle.w, idle.h), Get(idle.baseline, Pelvis, Point(0.0, 0.0)));
  }

  /** The first pass after start-up draws idle frame 0 with its pelvis on the
      idle clip's LAST pelvis, not on the centre where loading put it: the
      anchor starts at the last frame while the idle loop starts at frame 0. */
  lemma StartupFirstIdleFrame(files: Files)
    requires IdleClip in files && files[IdleClip].Some?
    requires |files[IdleClip].value.frames| > 0 && Pelvis in files[IdleClip].value.frames[0]
    ensures var r := Startup(files);
      && r.Some?
      && var (cfg, s) := r.value;
         var last := cfg.idle.frames[|cfg.idle.frames| - 1];
         var p := Tick(cfg, s, []);
         && Pelvis in cfg.idle.frames[0] && cfg.idle.frames[0][Pelvis] == Centre(cfg.idle.w, cfg.idle.h)
         && p.shown.Some? && Pelvis in p.shown.value
         && p.shown.value[Pelvis] == (if Pelvis in last then last[Pelvis] else Centre(cfg.idle.w, cfg.idle.h))
  {
    StartupCentred(files);
    IdleLoadCentred(files[IdleClip]);
    var (cfg, s) := Startup(files).value;
    IdleTick(cfg, s);
  }

  /** Loading the idle clip alone centres its first pelvis on its canvas. */
  lemma IdleLoadCentred(src: Option<ClipFile>)
    requires src.Some? && |src.value.frames| > 0 && Pelvis in src.value.frames[0]
    ensures var idle := ClipLoader.LoadFrames([src]);
      && |idle.frames| > 0 && Pelvis in idle.frames[0]
      && idle.baseline == idle.frames[0]
      && idle.frames[0][Pelvis] == Centre(idle.w, idle.h)
  {
    var srcs := [src];
    assert srcs[..0] == [];
    assert ClipLoader.AcceptedClips(srcs) == [src];
    ClipLoader.FirstClipCentred(srcs);
    ClipLoader.LoadOneCanvas(src);
  }

  /** A centred baseline pelvis leaves nothing to move. */
  lemma ZeroOffset(idle: ClipLoader.Loaded)
    requires Pelvis in idle.baseline && idle.baseline[Pelvis] == Centre(idle.w, idle.h)
    ensures Sub(Centre(idle.w, idle.h), Get(idle.baseline, Pelvis, Point(0.0, 0.0))) == Point(0.0, 0.0)
  {
  }

  // ---------------------------------------------------------------------
  // Properties of action-name resolution

  /** A bare name with its own clip under `actions/` resolves to that clip,
      before `ACTION_MAP` is consulted. */
  lemma ResolvesOwnClip(files: Files, clean: string)
    requires !HasParent(clean) && Lower(Suffix(clean)) != ".json"
    requires "actions/" + clean + ".json" in files
    ensures Candidate(files, clean) == Some("actions/" + clean + ".json")
  {
  }

  /** A request name of `ACTION_MAP` without its own clip stands for the
      mapped clip. */
  lemma ResolvesMappedName(files: Files, clean: string)
    requires !HasParent(clean) && Lower(Suffix(clean)) != ".json"
    requires clean in ActionMap && "actions/" + clean + ".json" !in files
    ensures Candidate(files, clean) == Some("actions/" + ActionMap[clean] + ".json")
  {
    assert ActionMap[clean] != "" by { MappedClipsNamed(); }
  }

  /** Every `ACTION_MAP` entry names a clip. */
  lemma MappedClipsNamed()
    ensures forall n :: n in ActionMap ==> |ActionMap[n]| > 0
  {
  }

  /** A bare name that is neither a clip nor in `ACTION_MAP` stands for nothing. */
  lemma UnresolvedName(files: Files, clean: string)
    requires !HasParent(clean) && Lower(Suffix(clean)) != ".json"
    requires "actions/" + clean + ".json" !in files && clean !in ActionMap
    ensures Candidate(files, clean) == None
  {
  }

  /** A name with a directory part and a suffix other than `.json` stands for
      the same path with its suffix replaced by `.json`. */
  lemma ResolvesPathSuffix(files: Files, clean: string)
    requires HasParent(clean) && Lower(Suffix(clean)) != ".json"
    ensures Candidate(files, clean) == Some(WithJsonSuffix(clean))
  {
  }

  /** For example, the suffix of `dir/x.txt` is `.txt` ... */
  lemma TextSuffix()
    ensures Suffix("dir/x.txt") == ".txt"
  {
    var path := "dir/x.txt";
    assert LastDotOfName(path, 5) by {
      assert path[5] == '.';
      assert forall m :: 5 < m < |path| ==> path[m] in "txt";
    }
    assert SuffixDot(path, 5);
    assert path[5..] == ".txt";
  }

  /** ... and `dir/x.txt` stands for `dir/x.json`. */
  lemma ReplacesTextSuffix()
    ensures WithJsonSuffix("dir/x.txt") == "dir/x.json"
  {
    var path := "dir/x.txt";
    var r := WithJsonSuffix(path);
    var stem :| path == stem + Suffix(path) && r == stem + ".json";
    TextSuffix();
    assert stem == path[..5] by {
      assert |stem| == 5;
    }
  }

  /** A name with a directory part and no suffix stands for its `.json` file. */
  lemma ResolvesPathName(files: Files, clean: string)
    requires HasParent(clean) && Suffix(clean) == ""
    ensures Candidate(files, clean) == Some(clean + ".json")
  {
  }
}

=== FILE: skeleton.dfy ===
/** Bone placement of the renderer (pygame_Alpha.py `get_angle` and `render`):
    which sprites are drawn, in which order, at which angle and where.
    The image rotation itself (`rotate_bound_pg`, pygame's rotate and
    smoothscale) is not modelled; a sprite is described by its angle and the
    scaled screen point its pivot is anchored to. */
module Skeleton {
  import opened Geometry

  /** The ten sprites of `PART_NAMES`. */
  datatype Part = Body | Head | RightHip | RightKnee | LeftHip | LeftKnee
                | RightElbow | RightWrist | LeftElbow | LeftWrist

  /** `PART_NAMES`, in declaration order. */
  const PartNames: seq<Part> :=
    [Body, Head, RightHip, RightKnee, LeftHip, LeftKnee, RightElbow, RightWrist, LeftElbow, LeftWrist]

  /** `DRAW_ORDER`: larger values are drawn later, on top. */
  function DrawOrder(p: Part): int {
    match p
    case Body => 3
    case Head => 2
    case RightHip => 1
    case RightKnee => 3
    case LeftHip => 1
    case LeftKnee => 3
    case RightElbow => 4
    case RightWrist => 4
    case LeftElbow => 1
    case LeftWrist => 2
  }

  /** `PART_CONNECT`: the start and end joint of each sprite. */
  function Connect(p: Part): (string, string) {
    match p
    case Body => ("upper_neck", "pelvis")
    case Head => ("head_top", "upper_neck")
    case RightHip => ("right_hip", "right_knee")
    case RightKnee => ("right_knee", "right_ankle")
    case LeftHip => ("left_hip", "left_knee")
    case LeftKnee => ("left_knee", "left_ankle")
    case RightElbow => ("right_shoulder", "right_elbow")
    case RightWrist => ("right_elbow", "right_wrist")
    case LeftElbow => ("left_shoulder", "left_elbow")
    case LeftWrist => ("left_elbow", "left_wrist")
  }

  /** The static offsets of `PART_PARAM` (its third and fourth entries); only
      the head is shifted. The first two entries, the pivot, feed only the
      image rotation. */
  function Offset(p: Part): Point {
    if p == Head then Point(-5.0, -60.0) else Point(0.0, 0.0)
  }

  /** `SCALE_FACTOR`. */
  const Scale: real := 0.79

  // ---------------------------------------------------------------------
  // The angle convention

  function Abs(x: real): real {
    if x < 0.0 then -x else x
  }

  /** `atan`, in degrees, maps every positive ratio strictly between 0 and 90. */
  ghost predicate AtanInRange(atanDeg: real -> real) {
    forall t :: t > 0.0 ==> 0.0 < atanDeg(t) < 90.0
  }

  /** `get_angle(x1, y1, x2, y2)`: the clockwise sprite rotation for the bone
      from (x1, y1) to (x2, y2); `atanDeg` stands for `math.degrees(math.atan(.))`. */
  function GetAngle(x1: real, y1: real, x2: real, y2: real, atanDeg: real -> real): real {
    var dx := Abs(x1 - x2);
    var dy := Abs(y1 - y2);
    if x1 == x2 then
      (if y1 > y2 then 180.0 else 0.0)
    else if y1 == y2 then
      0.0
    else
      var angle := if dy != 0.0 then atanDeg(dx / dy) else 0.0;
      var result :=
        if x1 < x2 then (if y1 > y2 then -(180.0 - angle) else -angle)
        else (if y1 > y2 then 180.0 - angle else angle);
      if result < 0.0 then result + 360.0 else result
  }

  /** The axis-aligned cases: a vertical bone points at 180 when its start
      lies below its end and at 0 otherwise; a horizontal bone is at 0 in
      both directions. */
  lemma AngleOnAxes(x1: real, y1: real, x2: real, y2: real, atanDeg: real -> real)
    ensures x1 == x2 && y1 > y2 ==> GetAngle(x1, y1, x2, y2, atanDeg) == 180.0
    ensures x1 == x2 && y1 <= y2 ==> GetAngle(x1, y1, x2, y2, atanDeg) == 0.0
    ensures x1 != x2 && y1 == y2 ==> GetAngle(x1, y1, x2, y2, atanDeg) == 0.0
  {
  }

  /** Every angle lies in [0, 360), and each diagonal quadrant maps to its
      own open quarter turn. */
  lemma AngleQuadrants(x1: real, y1: real, x2: real, y2: real, atanDeg: real -> real)
    requires AtanInRange(atanDeg)
    ensures var a := GetAngle(x1, y1, x2, y2, atanDeg);
      && 0.0 <= a < 360.0
      && (x1 > x2 && y1 < y2 ==> 0.0 < a < 90.0)
      && (x1 > x2 && y1 > y2 ==> 90.0 < a < 180.0)
      && (x1 < x2 && y1 > y2 ==> 180.0 < a < 270.0)
      && (x1 < x2 && y1 < y2 ==> 270.0 < a < 360.0)
  {
    if x1 != x2 && y1 != y2 {
      var dx := Abs(x1 - x2);
      var dy := Abs(y1 - y2);
      assert dx / dy > 0.0;
      assert 0.0 < atanDeg(dx / dy) < 90.0;
    }
  }

  /** Reversing a bone turns it by half a turn, except for a horizontal bone,
      which stays at 0 both ways. */
  lemma AngleReversed(x1: real, y1: real, x2: real, y2: real, atanDeg: real -> real)
    requires AtanInRange(atanDeg)
    ensures var f := GetAngle(x1, y1, x2, y2, atanDeg);
      var g := GetAngle(x2, y2, x1, y1, atanDeg);
      && (y1 != y2 ==> g == (if f < 180.0 then f + 180.0 else f - 180.0))
      && (y1 == y2 ==> f == 0.0 && g == 0.0)
  {
    if x1 != x2 && y1 != y2 {
      var dx := Abs(x1 - x2);
      var dy := Abs(y1 - y2);
      assert Abs(x2 - x1) == dx && Abs(y2 - y1) == dy;
      assert dx / dy > 0.0;
      assert 0.0 < atanDeg(dx / dy) < 90.0;
    }
  }

  /** The angle depends only on the vector between the two joints. */
  lemma AngleTranslationInvariant(x1: real, y1: real, x2: real, y2: real, d: Point, atanDeg: real -> real)
    ensures GetAngle(x1 + d.x, y1 + d.y, x2 + d.x, y2 + d.y, atanDeg) == GetAngle(x1, y1, x2, y2, atanDeg)
  {
    assert (x1 + d.x) - (x2 + d.x) == x1 - x2;
    assert (y1 + d.y) - (y2 + d.y) == y1 - y2;
  }

  // ---------------------------------------------------------------------
  // Draw order: Python's stable `sorted(.., key=..)`

  /** `x` placed before the first element whose key is not smaller. */
  function Insert<T>(x: T, s: seq<T>, key: T -> int): (r: seq<T>)
    ensures |r| == |s| + 1
    decreases |s|
  {
    if |s| == 0 || key(x) <= key(s[0]) then [x] + s
    else [s[0]] + Insert(x, s[1..], key)
  }

  /** Stable insertion sort by `key`. */
  function SortBy<T>(s: seq<T>, key: T -> int): (r: seq<T>)
    ensures |r| == |s|
  {
    if |s| == 0 then []
    else Insert(s[0], SortBy(s[1..], key), key)
  }

  ghost predicate SortedBy<T>(s: seq<T>, key: T -> int) {
    forall i, j :: 0 <= i < j < |s| ==> key(s[i]) <= key(s[j])
  }

  /** The elements of `s` whose key is `k`, in order. */
  function WithKey<T>(s: seq<T>, key: T -> int, k: int): seq<T> {
    if |s| == 0 then []
    else (if key(s[0]) == k then [s[0]] else []) + WithKey(s[1..], key, k)
  }

  lemma {:induction false} InsertPermutes<T>(x: T, s: seq<T>, key: T -> int)
    ensures multiset(Insert(x, s, key)) == multiset(s) + multiset{x}
    decreases |s|
  {
    if |s| > 0 && key(x) > key(s[0]) {
      InsertPermutes(x, s[1..], key);
      assert s == [s[0]] + s[1..];
    }
  }

  lemma {:induction false} InsertSorted<T>(x: T, s: seq<T>, key: T -> int)
    requires SortedBy(s, key)
    ensures SortedBy(Insert(x, s, key), key)
    decreases |s|
  {
    if |s| > 0 && key(x) > key(s[0]) {
      InsertSorted(x, s[1..], key);
      var t := Insert(x, s[1..], key);
      InsertPermutes(x, s[1..], key);
      assert multiset(t) == multiset(s[1..]) + multiset{x};
      forall j | 0 <= j < |t| ensures key(s[0]) <= key(t[j]) {
        assert t[j] in multiset(t);
        if t[j] != x {
          assert t[j] in multiset(s[1..]);
          var m :| 0 <= m < |s[1..]| && s[1..][m] == t[j];
          assert s[1..][m] == s[m + 1];
        }
      }
    }
  }

  /** Inserting `x` ahead of every element of its key keeps each key's
      elements in their order, with `x` first among its own. */
  lemma {:induction false} InsertStable<T>(x: T, s: seq<T>, key: T -> int, k: int)
    requires SortedBy(s, key)
    ensures WithKey(Insert(x, s, key), key, k) == (if key(x) == k then [x] else []) + WithKey(s, key, k)
    decreases |s|
  {
    if |s| == 0 || key(x) <= key(s[0]) {
      var r := [x] + s;
      assert r[1..] == s;
    } else {
      InsertStable(x, s[1..], key, k);
      var r := [s[0]] + Insert(x, s[1..], key);
      assert r[1..] == Insert(x, s[1..], key);
    }
  }

  /** The sort yields a permutation in non-decreasing key order, and for every
      key its elements keep their input order: exactly Python's stable sort. */
  lemma {:induction false} SortByCorrect<T>(s: seq<T>, key: T -> int)
    ensures multiset(SortBy(s, key)) == multiset(s)
    ensures SortedBy(SortBy(s, key), key)
    ensures forall k :: WithKey(SortBy(s, key), key, k) == WithKey(s, key, k)
  {
    if |s| > 0 {
      SortByCorrect(s[1..], key);
      InsertPermutes(s[0], SortBy(s[1..], key), key);
      assert s == [s[0]] + s[1..];
      InsertSorted(s[0], SortBy(s[1..], key), key);
      forall k ensures WithKey(SortBy(s, key), key, k) == WithKey(s, key, k) {
        InsertStable(s[0], SortBy(s[1..], key), key, k);
      }
    }
  }

  /** The sprites in the order `render` draws them. */
  const DrawList: seq<Part> :=
    [RightHip, LeftHip, LeftElbow, Head, LeftWrist, Body, RightKnee, LeftKnee, RightElbow, RightWrist]

  /** The draw list is `sorted(PART_NAMES, key=lambda p: DRAW_ORDER[p])`. */
  lemma DrawListIsSorted()
    ensures SortBy(PartNames, DrawOrder) == DrawList
  {
    DrawSuffix0();
  }

  /** One unfolding of the sort. */
  lemma SortCons<T>(x: T, t: seq<T>, key: T -> int)
    ensures SortBy([x] + t, key) == Insert(x, SortBy(t, key), key)
  {
    assert ([x] + t)[1..] == t;
  }

  /** One step of insertion past a smaller key. */
  lemma InsertPast<T>(x: T, y: T, t: seq<T>, key: T -> int)
    requires key(y) < key(x)
    ensures Insert(x, [y] + t, key) == [y] + Insert(x, t, key)
  {
    assert ([y] + t)[1..] == t;
  }

  /** Insertion stops in front of a key that is not smaller. */
  lemma InsertAt<T>(x: T, y: T, t: seq<T>, key: T -> int)
    requires key(x) <= key(y)
    ensures Insert(x, [y] + t, key) == [x, y] + t
  {
  }

  // Evaluation of the sort on `PART_NAMES`, one insertion step per lemma:
  // `DrawInsertK_J` inserts the K-th part into the J-th suffix of the list
  // sorted so far, and `DrawSuffixK` sorts the parts from K on.

  lemma DrawInsert9_0()
    ensures Insert(LeftWrist, [], DrawOrder) == [LeftWrist]
  {
  }

  lemma DrawSuffix9()
    ensures SortBy([LeftWrist], DrawOrder) == [LeftWrist]
  {
    DrawInsert9_0();
    SortCons(LeftWrist, [], DrawOrder);
    assert [LeftWrist] == [LeftWrist] + [];
  }

  lemma DrawInsert8_0()
    ensures Insert(LeftElbow, [LeftWrist], DrawOrder) == [LeftElbow, LeftWrist]
  {
    InsertAt(LeftElbow, LeftWrist, [], DrawOrder);
    assert [LeftWrist] == [LeftWrist] + [];
  }

  lemma DrawSuffix8()
    ensures SortBy([LeftElbow, LeftWrist], DrawOrder) == [LeftElbow, LeftWrist]
  {
    DrawSuffix9();
    DrawInsert8_0();
    SortCons(LeftElbow, [LeftWrist], DrawOrder);
    assert [LeftElbow, LeftWrist] == [LeftElbow] + [LeftWrist];
  }

  lemma DrawInsert7_2()
    ensures Insert(RightWrist, [], DrawOrder) == [RightWrist]
  {
  }

  lemma DrawInsert7_1()
    ensures Insert(RightWrist, [LeftWrist], DrawOrder) == [LeftWrist, RightWrist]
  {
    DrawInsert7_2();
    InsertPast(RightWrist, LeftWrist, [], DrawOrder);
    assert [LeftWrist] == [LeftWrist] + [];
  }

  lemma DrawInsert7_0()
    ensures Insert(RightWrist, [LeftElbow, LeftWrist], DrawOrder) == [LeftElbow, LeftWrist, RightWrist]
  {
    DrawInsert7_1();
    InsertPast(RightWrist, LeftElbow, [LeftWrist], DrawOrder);
    assert [LeftElbow, LeftWrist] == [LeftElbow] + [LeftWrist];
  }

  lemma DrawSuffix7()
    ensures SortBy([RightWrist, LeftElbow, LeftWrist], DrawOrder) == [LeftElbow, LeftWrist, RightWrist]
  {
    DrawSuffix8();
    DrawInsert7_0();
    SortCons(RightWrist, [LeftElbow, LeftWrist], DrawOrder);
    assert [RightWrist, LeftElbow, LeftWrist] == [RightWrist] + [LeftElbow, LeftWrist];
  }

  lemma DrawInsert6_2()
    ensures Insert(RightElbow, [RightWrist], DrawOrder) == [RightElbow, RightWrist]
  {
    InsertAt(RightElbow, RightWrist, [], DrawOrder);
    assert [RightWrist] == [RightWrist] + [];
  }

  lemma DrawInsert6_1()
    ensures Insert(RightElbow, [LeftWrist, RightWrist], DrawOrder) == [LeftWrist, RightElbow, RightWrist]
  {
    DrawInsert6_2();
    InsertPast(RightElbow, LeftWrist, [RightWrist], DrawOrder);
    assert [LeftWrist, RightWrist] == [LeftWrist] + [RightWrist];
  }

  lemma DrawInsert6_0()
    ensures Insert(RightElbow, [LeftElbow, LeftWrist, RightWrist], DrawOrder) == [LeftElbow, LeftWrist, RightElbow, RightWrist]
  {
    DrawInsert6_1();
    InsertPast(RightElbow, LeftElbow, [LeftWrist, RightWrist], DrawOrder);
    assert [LeftElbow, LeftWrist, RightWrist] == [LeftElbow] + [LeftWrist, RightWrist];
  }

  lemma DrawSuffix6()
    ensures SortBy([RightElbow, RightWrist, LeftElbow, LeftWrist], DrawOrder) == [LeftElbow, LeftWrist, RightElbow, RightWrist]
  {
    DrawSuffix7();
    DrawInsert6_0();
    SortCons(RightElbow, [RightWrist, LeftElbow, LeftWrist], DrawOrder);
    assert [RightElbow, RightWrist, LeftElbow, LeftWrist] == [RightElbow] + [RightWrist, LeftElbow, LeftWrist];
  }

  lemma DrawInsert5_2()
    ensures Insert(LeftKnee, [RightElbow, RightWrist], DrawOrder) == [LeftKnee, RightElbow, RightWrist]
  {
    InsertAt(LeftKnee, RightElbow, [RightWrist], DrawOrder);
    assert [RightElbow, RightWrist] == [RightElbow] + [RightWrist];
  }

  lemma DrawInsert5_1()
    ensures Insert(LeftKnee, [LeftWrist, RightElbow, RightWrist], DrawOrder) == [LeftWrist, LeftKnee, RightElbow, RightWrist]
  {
    DrawInsert5_2();
    InsertPast(LeftKnee, LeftWrist, [RightElbow, RightWrist], DrawOrder);
    assert [LeftWrist, RightElbow, RightWrist] == [LeftWrist] + [RightElbow, RightWrist];
  }

  lemma DrawInsert5_0()
    ensures Insert(LeftKnee, [LeftElbow, LeftWrist, RightElbow, RightWrist], DrawOrder) == [LeftElbow, LeftWrist, LeftKnee, RightElbow, RightWrist]
  {
    DrawInsert5_1();
    InsertPast(LeftKnee, LeftElbow, [LeftWrist, RightElbow, RightWrist], DrawOrder);
    assert [LeftElbow, LeftWrist, RightElbow, RightWrist] == [LeftElbow] + [LeftWrist, RightElbow, RightWrist];
  }

  lemma DrawSuffix5()
    ensures SortBy([LeftKnee, RightElbow, RightWrist, LeftElbow, LeftWrist], DrawOrder) == [LeftElbow, LeftWrist, LeftKnee, RightElbow, RightWrist]
  {
    DrawSuffix6();
    DrawInsert5_0();
    SortCons(LeftKnee, [RightElbow, RightWrist, LeftElbow, LeftWrist], DrawOrder);
    assert [LeftKnee, RightElbow, RightWrist, LeftElbow, LeftWrist] == [LeftKnee] + [RightElbow, RightWrist, LeftElbow, LeftWrist];
  }

  lemma DrawInsert4_0()
    ensures Insert(LeftHip, [LeftElbow, LeftWrist, LeftKnee, RightElbow, RightWrist], DrawOrder) == [LeftHip, LeftElbow, LeftWrist, LeftKnee, RightElbow, RightWrist]
  {
    InsertAt(LeftHip, LeftElbow, [LeftWrist, LeftKnee, RightElbow, RightWrist], DrawOrder);
    assert [LeftElbow, LeftWrist, LeftKnee, RightElbow, RightWrist] == [LeftElbow] + [LeftWrist, LeftKnee, RightElbow, RightWrist];
  }

  lemma DrawSuffix4()
    ensures SortBy([LeftHip, LeftKnee, RightElbow, RightWrist, LeftElbow, LeftWrist], DrawOrder) == [LeftHip, LeftElbow, LeftWrist, LeftKnee, RightElbow, RightWrist]
  {
    DrawSuffix5();
    DrawInsert4_0();
    SortCons(LeftHip, [LeftKnee, RightElbow, RightWrist, LeftElbow, LeftWrist], DrawOrder);
    assert [LeftHip, LeftKnee, RightElbow, RightWrist, LeftElbow, LeftWrist] == [LeftHip] + [LeftKnee, RightElbow, RightWrist, LeftElbow, LeftWrist];
  }

  lemma DrawInsert3_3()
    ensures Insert(RightKnee, [LeftKnee, RightElbow, RightWrist], DrawOrder) == [RightKnee, LeftKnee, RightElbow, RightWrist]
  {
    InsertAt(RightKnee, LeftKnee, [RightElbow, RightWrist], DrawOrder);
    assert [LeftKnee, RightElbow, RightWrist] == [LeftKnee] + [RightElbow, RightWrist];
  }

  lemma DrawInsert3_2()
    ensures Insert(RightKnee, [LeftWrist, LeftKnee, RightElbow, RightWrist], DrawOrder) == [LeftWrist, RightKnee, LeftKnee, RightElbow, RightWrist]
  {
    DrawInsert3_3();
    InsertPast(RightKnee, LeftWrist, [LeftKnee, RightElbow, RightWrist], DrawOrder);
    assert [LeftWrist, LeftKnee, RightElbow, RightWrist] == [LeftWrist] + [LeftKnee, RightElbow, RightWrist];
  }

  lemma DrawInsert3_1()
    ensures Insert(RightKnee, [LeftElbow, LeftWrist, LeftKnee, RightElbow, RightWrist], DrawOrder) == [LeftElbow, LeftWrist, RightKnee, LeftKnee, RightElbow, RightWrist]
  {
    DrawInsert3_2();
    InsertPast(RightKnee, LeftElbow, [LeftWrist, LeftKnee, RightElbow, RightWrist], DrawOrder);
    assert [LeftElbow, LeftWrist, LeftKnee, RightElbow, RightWrist] == [LeftElbow] + [LeftWrist, LeftKnee, RightElbow, RightWrist];
  }

  lemma DrawInsert3_0()
    ensures Insert(RightKnee, [LeftHip, LeftElbow, LeftWrist, LeftKnee, RightElbow, RightWrist], DrawOrder) == [LeftHip, LeftElbow, LeftWrist, RightKnee, LeftKnee, RightElbow, RightWrist]
  {
    DrawInsert3_1();
    InsertPast(RightKnee, LeftHip, [LeftElbow, LeftWrist, LeftKnee, RightElbow, RightWrist], DrawOrder);
    assert [LeftHip, LeftElbow, LeftWrist, LeftKnee, RightElbow, RightWrist] == [LeftHip] + [LeftElbow, LeftWrist, LeftKnee, RightElbow, RightWrist];
  }

  lemma DrawSuffix3()
    ensures SortBy([RightKnee, LeftHip, LeftKnee, RightElbow, RightWrist, LeftElbow, LeftWrist], DrawOrder) == [LeftHip, LeftElbow, LeftWrist, RightKnee, LeftKnee, RightElbow, RightWrist]
  {
    DrawSuffix4();
    DrawInsert3_0();
    SortCons(RightKnee, [LeftHip, LeftKnee, RightElbow, RightWrist, LeftElbow, LeftWrist], DrawOrder);
    assert [RightKnee, LeftHip, LeftKnee, RightElbow, RightWrist, LeftElbow, LeftWrist] == [RightKnee] + [LeftHip, LeftKnee, RightElbow, RightWrist, LeftElbow, LeftWrist];
  }

  lemma DrawInsert2_0()
    ensures Insert(RightHip, [LeftHip, LeftElbow, LeftWrist, RightKnee, LeftKnee, RightElbow, RightWrist], DrawOrder) == [RightHip, LeftHip, LeftElbow, LeftWrist, RightKnee, LeftKnee, RightElbow, RightWrist]
  {
    InsertAt(RightHip, LeftHip, [LeftElbow, LeftWrist, RightKnee, LeftKnee, RightElbow, RightWrist], DrawOrder);
    assert [LeftHip, LeftElbow, LeftWrist, RightKnee, LeftKnee, RightElbow, RightWrist] == [LeftHip] + [LeftElbow, LeftWrist, RightKnee, LeftKnee, RightElbow, RightWrist];
  }

  lemma DrawSuffix2()
    ensures SortBy([RightHip, RightKnee, LeftHip, LeftKnee, RightElbow, RightWrist, LeftElbow, LeftWrist], DrawOrder) == [RightHip, LeftHip, LeftElbow, LeftWrist, RightKnee, LeftKnee, RightElbow, RightWrist]
  {
    DrawSuffix3();
    DrawInsert2_0();
    SortCons(RightHip, [RightKnee, LeftHip, LeftKnee, RightElbow, RightWrist, LeftElbow, LeftWrist], DrawOrder);
    assert [RightHip, RightKnee, LeftHip, LeftKnee, RightElbow, RightWrist, LeftElbow, LeftWrist] == [RightHip] + [RightKnee, LeftHip, LeftKnee, RightElbow, RightWrist, LeftElbow, LeftWrist];
  }

  lemma DrawInsert1_3()
    ensures Insert(Head, [LeftWrist, RightKnee, LeftKnee, RightElbow, RightWrist], DrawOrder) == [Head, LeftWrist, RightKnee, LeftKnee, RightElbow, RightWrist]
  {
    InsertAt(Head, LeftWrist, [RightKnee, LeftKnee, RightElbow, RightWrist], DrawOrder);
    assert [LeftWrist, RightKnee, LeftKnee, RightElbow, RightWrist] == [LeftWrist] + [RightKnee, LeftKnee, RightElbow, RightWrist];
  }

  lemma DrawInsert1_2()
    ensures Insert(Head, [LeftElbow, LeftWrist, RightKnee, LeftKnee, RightElbow, RightWrist], DrawOrder) == [LeftElbow, Head, LeftWrist, RightKnee, LeftKnee, RightElbow, RightWrist]
  {
    DrawInsert1_3();
    InsertPast(Head, LeftElbow, [LeftWrist, RightKnee, LeftKnee, RightElbow, RightWrist], DrawOrder);
    assert [LeftElbow, LeftWrist, RightKnee, LeftKnee, RightElbow, RightWrist] == [LeftElbow] + [LeftWrist, RightKnee, LeftKnee, RightElbow, RightWrist];
  }

  lemma DrawInsert1_1()
    ensures Insert(Head, [LeftHip, LeftElbow, LeftWrist, RightKnee, LeftKnee, RightElbow, RightWrist], DrawOrder) == [LeftHip, LeftElbow, Head, LeftWrist, RightKnee, LeftKnee, RightElbow, RightWrist]
  {
    DrawInsert1_2();
    InsertPast(Head, LeftHip, [LeftElbow, LeftWrist, RightKnee, LeftKnee, RightElbow, RightWrist], DrawOrder);
    assert [LeftHip, LeftElbow, LeftWrist, RightKnee, LeftKnee, RightElbow, RightWrist] == [LeftHip] + [LeftElbow, LeftWrist, RightKnee, LeftKnee, RightElbow, RightWrist];
  }

  lemma DrawInsert1_0()
    ensures Insert(Head, [RightHip, LeftHip, LeftElbow, LeftWrist, RightKnee, LeftKnee, RightElbow, RightWrist], DrawOrder) == [RightHip, LeftHip, LeftElbow, Head, LeftWrist, RightKnee, LeftKnee, RightElbow, RightWrist]
  {
    DrawInsert1_1();
    InsertPast(Head, RightHip, [LeftHip, LeftElbow, LeftWrist, RightKnee, LeftKnee, RightElbow, RightWrist], DrawOrder);
    assert [RightHip, LeftHip, LeftElbow, LeftWrist, RightKnee, LeftKnee, RightElbow, RightWrist] == [RightHip] + [LeftHip, LeftElbow, LeftWrist, RightKnee, LeftKnee, RightElbow, RightWrist];
  }

  lemma DrawSuffix1()
    ensures SortBy([Head, RightHip, RightKnee, LeftHip, LeftKnee, RightElbow, RightWrist, LeftElbow, LeftWrist], DrawOrder) == [RightHip, LeftHip, LeftElbow, Head, LeftWrist, RightKnee, LeftKnee, RightElbow, RightWrist]
  {
    DrawSuffix2();
    DrawInsert1_0();
    SortCons(Head, [RightHip, RightKnee, LeftHip, LeftKnee, RightElbow, RightWrist, LeftElbow, LeftWrist], DrawOrder);
    assert [Head, RightHip, RightKnee, LeftHip, LeftKnee, RightElbow, RightWrist, LeftElbow, LeftWrist] == [Head] + [RightHip, RightKnee, LeftHip, LeftKnee, RightElbow, RightWrist, LeftElbow, LeftWrist];
  }

  lemma DrawInsert0_5()
    ensures Insert(Body, [RightKnee, LeftKnee, RightElbow, RightWrist], DrawOrder) == [Body, RightKnee, LeftKnee, RightElbow, RightWrist]
  {
    InsertAt(Body, RightKnee, [LeftKnee, RightElbow, RightWrist], DrawOrder);
    assert [RightKnee, LeftKnee, RightElbow, RightWrist] == [RightKnee] + [LeftKnee, RightElbow, RightWrist];
  }

  lemma DrawInsert0_4()
    ensures Insert(Body, [LeftWrist, RightKnee, LeftKnee, RightElbow, RightWrist], DrawOrder) == [LeftWrist, Body, RightKnee, LeftKnee, RightElbow, RightWrist]
  {
    DrawInsert0_5();
    InsertPast(Body, LeftWrist, [RightKnee, LeftKnee, RightElbow, RightWrist], DrawOrder);
    assert [LeftWrist, RightKnee, LeftKnee, RightElbow, RightWrist] == [LeftWrist] + [RightKnee, LeftKnee, RightElbow, RightWrist];
  }

  lemma DrawInsert0_3()
    ensures Insert(Body, [Head, LeftWrist, RightKnee, LeftKnee, RightElbow, RightWrist], DrawOrder) == [Head, LeftWrist, Body, RightKnee, LeftKnee, RightElbow, RightWrist]
  {
    DrawInsert0_4();
    InsertPast(Body, Head, [LeftWrist, RightKnee, LeftKnee, RightElbow, RightWrist], DrawOrder);
    assert [Head, LeftWrist, RightKnee, LeftKnee, RightElbow, RightWrist] == [Head] + [LeftWrist, RightKnee, LeftKnee, RightElbow, RightWrist];
  }

  lemma DrawInsert0_2()
    ensures Insert(Body, [LeftElbow, Head, LeftWrist, RightKnee, LeftKnee, RightElbow, RightWrist], DrawOrder) == [LeftElbow, Head, LeftWrist, Body, RightKnee, LeftKnee, RightElbow, RightWrist]
  {
    DrawInsert0_3();
    InsertPast(Body, LeftElbow, [Head, LeftWrist, RightKnee, LeftKnee, RightElbow, RightWrist], DrawOrder);
    assert [LeftElbow, Head, LeftWrist, RightKnee, LeftKnee, RightElbow, RightWrist] == [LeftElbow] + [Head, LeftWrist, RightKnee, LeftKnee, RightElbow, RightWrist];
  }

  lemma DrawInsert0_1()
    ensures Insert(Body, [LeftHip, LeftElbow, Head, LeftWrist, RightKnee, LeftKnee, RightElbow, RightWrist], DrawOrder) == [LeftHip, LeftElbow, Head, LeftWrist, Body, RightKnee, LeftKnee, RightElbow, RightWrist]
  {
    DrawInsert0_2();
    InsertPast(Body, LeftHip, [LeftElbow, Head, LeftWrist, RightKnee, LeftKnee, RightElbow, RightWrist], DrawOrder);
    assert [LeftHip, LeftElbow, Head, LeftWrist, RightKnee, LeftKnee, RightElbow, RightWrist] == [LeftHip] + [LeftElbow, Head, LeftWrist, RightKnee, LeftKnee, RightElbow, RightWrist];
  }

  lemma DrawInsert0_0()
    ensures Insert(Body, [RightHip, LeftHip, LeftElbow, Head, LeftWrist, RightKnee, LeftKnee, RightElbow, RightWrist], DrawOrder) == [RightHip, LeftHip, LeftElbow, Head, LeftWrist, Body, RightKnee, LeftKnee, RightElbow, RightWrist]
  {
    DrawInsert0_1();
    InsertPast(Body, RightHip, [LeftHip, LeftElbow, Head, LeftWrist, RightKnee, LeftKnee, RightElbow, RightWrist], DrawOrder);
    assert [RightHip, LeftHip, LeftElbow, Head, LeftWrist, RightKnee, LeftKnee, RightElbow, RightWrist] == [RightHip] + [LeftHip, LeftElbow, Head, LeftWrist, RightKnee, LeftKnee, RightElbow, RightWrist];
  }

  lemma DrawSuffix0()
    ensures SortBy([Body, Head, RightHip, RightKnee, LeftHip, LeftKnee, RightElbow, RightWrist, LeftElbow, LeftWrist], DrawOrder) == [RightHip, LeftHip, LeftElbow, Head, LeftWrist, Body, RightKnee, LeftKnee, RightElbow, RightWrist]
  {
    DrawSuffix1();
    DrawInsert0_0();
    SortCons(Body, [Head, RightHip, RightKnee, LeftHip, LeftKnee, RightElbow, RightWrist, LeftElbow, LeftWrist], DrawOrder);
    assert [Body, Head, RightHip, RightKnee, LeftHip, LeftKnee, RightElbow, RightWrist, LeftElbow, LeftWrist] == [Body] + [Head, RightHip, RightKnee, LeftHip, LeftKnee, RightElbow, RightWrist, LeftElbow, LeftWrist];
  }

  // ---------------------------------------------------------------------
  // Placement

  /** `(x - W // 2) * SCALE_FACTOR + W // 2`: scaling about the canvas centre. */
  function ScaleX(x: real, w: int): real {
    (x - Half(w) as real) * Scale + Half(w) as real
  }

  /** `(y - H // 2 + 65) * SCALE_FACTOR + H // 2`: scaling about a point 65
      pixels above the canvas centre. */
  function ScaleY(y: real, h: int): real {
    (y - Half(h) as real + 65.0) * Scale + Half(h) as real
  }

  /** Scaling fixes the canvas centre horizontally and the row 65 pixels above
      it vertically, and shrinks every distance by `Scale`. */
  lemma ScaleAboutCentre(w: int, h: int, a: real, b: real)
    ensures ScaleX(Half(w) as real, w) == Half(w) as real
    ensures ScaleY(Half(h) as real - 65.0, h) == Half(h) as real
    ensures ScaleX(a, w) - ScaleX(b, w) == Scale * (a - b)
    ensures ScaleY(a, h) - ScaleY(b, h) == Scale * (a - b)
  {
  }

  /** One drawn sprite: its part, its clockwise rotation and the screen point
      its pivot is anchored to (before the pivot compensation of the rotated
      image). */
  datatype Sprite = Sprite(part: Part, angle: real, anchor: Point)

  /** `render` looks up both joints of every part in the current frame and the
      start joint in the baseline, without a fallback. */
  predicate Renderable(joints: Joints, base: Joints) {
    forall p: Part :: Connect(p).0 in joints && Connect(p).1 in joints && Connect(p).0 in base
  }

  /** The loop body of `render` for one part (pygame_Alpha.py lines 113-139). */
  function Place(p: Part, joints: Joints, base: Joints, w: int, h: int, atanDeg: real -> real): Sprite
    requires Connect(p).0 in joints && Connect(p).1 in joints && Connect(p).0 in base
  {
    var (j1, j2) := Connect(p);
    var cur := joints[j1];
    var b := base[j1];
    var firstX := b.x + (cur.x - b.x) + Offset(p).x;
    var firstY := b.y + (cur.y - b.y) + Offset(p).y;
    var ang := GetAngle(cur.x, cur.y, joints[j2].x, joints[j2].y, atanDeg);
    Sprite(p, ang, Point(ScaleX(firstX, w), ScaleY(firstY, h)))
  }

  /** pygame_Alpha.py `render`: one sprite per part, in draw order. */
  function Render(joints: Joints, base: Joints, w: int, h: int, atanDeg: real -> real): (r: seq<Sprite>)
    requires Renderable(joints, base)
    ensures |r| == |PartNames|
    ensures forall i :: 0 <= i < |r| ==> r[i].part == DrawList[i]
  {
    seq(|DrawList|, i requires 0 <= i < |DrawList| => Place(DrawList[i], joints, base, w, h, atanDeg))
  }

  /** The baseline cancels: each sprite is anchored at its start joint's
      current position plus the part's offset, scaled about the centre, and
      turned by the angle of its bone. */
  lemma RenderPlacesAtJoints(joints: Joints, base: Joints, w: int, h: int, atanDeg: real -> real, i: int)
    requires Renderable(joints, base) && 0 <= i < |PartNames|
    ensures var s := Render(joints, base, w, h, atanDeg)[i];
      var (j1, j2) := Connect(s.part);
      && s.anchor == Point(ScaleX(joints[j1].x + Offset(s.part).x, w), ScaleY(joints[j1].y + Offset(s.part).y, h))
      && s.angle == GetAngle(joints[j1].x, joints[j1].y, joints[j2].x, joints[j2].y, atanDeg)
  {
  }

  /** Hence the rendered sprites do not depend on the baseline at all. */
  lemma RenderIgnoresBaseline(joints: Joints, b1: Joints, b2: Joints, w: int, h: int, atanDeg: real -> real)
    requires Renderable(joints, b1) && Renderable(joints, b2)
    ensures Render(joints, b1, w, h, atanDeg) == Render(joints, b2, w, h, atanDeg)
  {
    var r1 := Render(joints, b1, w, h, atanDeg);
    var r2 := Render(joints, b2, w, h, atanDeg);
    forall i | 0 <= i < |r1| ensures r1[i] == r2[i] {
      RenderPlacesAtJoints(joints, b1, w, h, atanDeg, i);
      RenderPlacesAtJoints(joints, b2, w, h, atanDeg, i);
    }
  }

  /** Moving the whole pose by `d` keeps every angle and moves every sprite by
      `Scale * d`. */
  lemma RenderFollowsShift(joints: Joints, base: Joints, d: Point, w: int, h: int, atanDeg: real -> real)
    requires Renderable(joints, base)
    ensures Renderable(Shift(joints, d), base)
    ensures var r := Render(joints, base, w, h, atanDeg);
      var s := Render(Shift(joints, d), base, w, h, atanDeg);
      forall i :: 0 <= i < |r| ==>
        && s[i].angle == r[i].angle
        && s[i].anchor == Point(r[i].anchor.x + Scale * d.x, r[i].anchor.y + Scale * d.y)
  {
    var moved := Shift(joints, d);
    var r := Render(joints, base, w, h, atanDeg);
    var s := Render(moved, base, w, h, atanDeg);
    forall i | 0 <= i < |r|
      ensures s[i].angle == r[i].angle
      ensures s[i].anchor == Point(r[i].anchor.x + Scale * d.x, r[i].anchor.y + Scale * d.y)
    {
      RenderPlacesAtJoints(joints, base, w, h, atanDeg, i);
      RenderPlacesAtJoints(moved, base, w, h, atanDeg, i);
      var (j1, j2) := Connect(r[i].part);
      AngleTranslationInvariant(joints[j1].x, joints[j1].y, joints[j2].x, joints[j2].y, d, atanDeg);
      ScaleAboutCentre(w, h, joints[j1].x + d.x + Offset(r[i].part).x, joints[j1].x + Offset(r[i].part).x);
      ScaleAboutCentre(w, h, joints[j1].y + d.y + Offset(r[i].part).y, joints[j1].y + Offset(r[i].part).y);
    }
  }
}

=== FILE: text.dfy ===
/** The string primitives the source relies on: `str.strip()`, `str.strip(chars)`,
    `str.lower()` and prefix tests. */
module Text {

  /** Python's `str.isspace` for a single character (the characters `strip()`
      with no argument removes). */
  predicate IsSpace(c: char) {
    var n := c as int;
    || 9 <= n <= 13
    || 28 <= n <= 32
    || n == 0x85 || n == 0xA0 || n == 0x1680
    || 0x2000 <= n <= 0x200A
    || n == 0x2028 || n == 0x2029 || n == 0x202F || n == 0x205F || n == 0x3000
  }

  /** The quote characters of `strip("'\"")`. */
  predicate IsQuote(c: char) {
    c == '\'' || c == '"'
  }

  /** `s` with its leading run of `drop` characters removed. */
  function TrimStart(s: string, drop: char -> bool): (r: string)
    ensures |r| <= |s| && r == s[|s| - |r|..]
    ensures forall i :: 0 <= i < |s| - |r| ==> drop(s[i])
    ensures |r| > 0 ==> !drop(r[0])
  {
    if |s| > 0 && drop(s[0]) then TrimStart(s[1..], drop) else s
  }

  /** `s` with its trailing run of `drop` characters removed. */
  function TrimEnd(s: string, drop: char -> bool): (r: string)
    ensures |r| <= |s| && r == s[..|r|]
    ensures forall i :: |r| <= i < |s| ==> drop(s[i])
    ensures |r| > 0 ==> !drop(r[|r| - 1])
  {
    if |s| > 0 && drop(s[|s| - 1]) then TrimEnd(s[..|s| - 1], drop) else s
  }

  /** Python's `s.strip(chars)`: both ends trimmed. The result is empty exactly
      when every character of `s` is droppable, and otherwise starts and ends
      with a kept character. */
  function Trim(s: string, drop: char -> bool): (r: string)
    ensures |r| <= |s|
    ensures |r| == 0 <==> forall i :: 0 <= i < |s| ==> drop(s[i])
    ensures |r| > 0 ==> !drop(r[0]) && !drop(r[|r| - 1])
  {
    TrimEnds(s, drop);
    TrimEnd(TrimStart(s, drop), drop)
  }

  lemma TrimEnds(s: string, drop: char -> bool)
    ensures var t := TrimStart(s, drop); var r := TrimEnd(t, drop);
      && (|r| == 0 <==> forall i :: 0 <= i < |s| ==> drop(s[i]))
      && (|r| > 0 ==> !drop(r[0]))
  {
    var t := TrimStart(s, drop);
    var r := TrimEnd(t, drop);
    if |r| > 0 {
      assert r[0] == t[0];
    }
  }

  /** Python's `s.strip()`. */
  function Strip(s: string): string {
    Trim(s, IsSpace)
  }

  /** Trimming twice is trimming once. */
  lemma {:induction false} TrimIdempotent(s: string, drop: char -> bool)
    ensures Trim(Trim(s, drop), drop) == Trim(s, drop)
  {
    var r := Trim(s, drop);
    if |r| > 0 {
      var t := TrimStart(s, drop);
      assert r == t[..|r|];
      assert r[0] == t[0];
      assert TrimStart(r, drop) == r;
      assert TrimEnd(r, drop) == r;
    }
  }

  /** ASCII `str.lower()` for one character. */
  function LowerChar(c: char): char {
    if 'A' <= c <= 'Z' then (c as int + 32) as char else c
  }

  /** `str.lower()`, on the ASCII letters. */
  function Lower(s: string): (r: string)
    ensures |r| == |s|
    ensures forall i :: 0 <= i < |s| ==> r[i] == LowerChar(s[i])
  {
    seq(|s|, i requires 0 <= i < |s| => LowerChar(s[i]))
  }

  /** A string that already starts and ends with kept characters is left as is. */
  lemma TrimKeeps(s: string, drop: char -> bool)
    requires |s| > 0 ==> !drop(s[0]) && !drop(s[|s| - 1])
    ensures Trim(s, drop) == s
  {
    assert TrimStart(s, drop) == s;
  }

  /** Lower-casing keeps whitespace and non-whitespace apart. */
  lemma LowerKeepsSpace(c: char)
    ensures IsSpace(LowerChar(c)) == IsSpace(c)
  {
  }

  /** Lower-casing twice is lower-casing once. */
  lemma LowerIdempotent(s: string)
    ensures Lower(Lower(s)) == Lower(s)
  {
  }
}

=== FILE: viewer.dfy ===
/** The standalone viewer (pygame_Alpha.py `main`): it stitches a fixed list of
    clip files like main.py does, but fails hard instead of skipping, uses a
    larger elbow correction, and records which file each frame came from. */
module Viewer {
  import opened Maybe
  import opened Geometry
  import opened ClipLoader

  /** Pixels by which the viewer lowers both elbows. */
  const ViewerElbowDrop: real := 20.0

  /** One entry of the viewer's file list; `content` is `None` when the file
      cannot be opened or parsed. */
  datatype Track = Track(path: string, content: Option<ClipFile>)

  /** The stitched frames with their bookkeeping: `mapping[n]` is the file of
      frame `n`, `ranges[k]` the half-open frame range of file `k`. */
  datatype Playlist = Playlist(
    frames: seq<Joints>, baseline: Joints, mapping: seq<string>, ranges: seq<(int, int)>, w: int, h: int)

  /** Why the viewer stops: an empty list leaves the canvas size unbound; a
      file that cannot be read, lacks a resolution, has no frames or lacks a
      needed pelvis raises while file `index` is processed. */
  datatype Reason = Unreadable | NoResolution | NoFrames | NoPelvis
  datatype LoadError = NoFiles | Crash(index: nat, reason: Reason)

  /** What processing file `i` looks up without raising: the file, its
      resolution, its first frame's pelvis and, after the first file, the
      previous file's last pelvis. */
  predicate LoadableAt(tracks: seq<Track>, i: nat)
    requires i < |tracks|
  {
    && tracks[i].content.Some?
    && tracks[i].content.value.resolution.Some?
    && |tracks[i].content.value.frames| > 0
    && Pelvis in tracks[i].content.value.frames[0]
    && (i > 0 && tracks[i - 1].content.Some? && |tracks[i - 1].content.value.frames| > 0 ==>
          Pelvis in Last(tracks[i - 1].content.value.frames))
  }

  function FrameCountOf(t: Track): nat {
    if t.content.Some? then |t.content.value.frames| else 0
  }

  /** The ranges are non-empty, contiguous, and cover exactly `[lo, hi)`. */
  ghost predicate Tiles(ranges: seq<(int, int)>, lo: int, hi: int) {
    && (|ranges| == 0 ==> lo == hi)
    && (|ranges| > 0 ==> ranges[0].0 == lo && ranges[|ranges| - 1].1 == hi)
    && (forall k :: 0 <= k < |ranges| ==> lo <= ranges[k].0 < ranges[k].1 <= hi)
    && (forall k :: 0 < k < |ranges| ==> ranges[k - 1].1 == ranges[k].0)
  }

  /** No pelvis jump at frame `b`: it and the frame before both have a pelvis, at the same place. */
  predicate Joined(frames: seq<Joints>, b: int) {
    && 0 < b < |frames|
    && Pelvis in frames[b] && Pelvis in frames[b - 1]
    && frames[b][Pelvis] == frames[b - 1][Pelvis]
  }

  /** The bookkeeping after the first `i` files: one range per file, as long
      as the file, tiling the frames, and one mapping entry per frame. */
  ghost predicate Sized(tracks: seq<Track>, i: nat, p: Playlist) {
    && i <= |tracks|
    && |p.ranges| == i
    && |p.mapping| == |p.frames|
    && Tiles(p.ranges, 0, |p.frames|)
    && (forall k :: 0 <= k < i ==> p.ranges[k].1 - p.ranges[k].0 == FrameCountOf(tracks[k]))
  }

  /** Every frame is mapped to the path of the file whose range holds it. */
  ghost predicate Mapped(tracks: seq<Track>, i: nat, p: Playlist)
    requires Sized(tracks, i, p)
  {
    forall k, n :: 0 <= k < i && p.ranges[k].0 <= n < p.ranges[k].1 ==> p.mapping[n] == tracks[k].path
  }

  /** A file's frames after the viewer's elbow and shoulder corrections. */
  function Corrected(t: Track): seq<Joints> {
    if t.content.Some? then CorrectAll(t.content.value.frames, ViewerElbowDrop) else []
  }

  /** Each of the first `i` files has its range in `frames`, and that range
      holds the file's corrected frames moved as a whole by the one vector
      `shifts[k]`. */
  ghost predicate Contents(tracks: seq<Track>, i: nat, frames: seq<Joints>, ranges: seq<(int, int)>, shifts: seq<Point>) {
    && i <= |tracks| && |ranges| == i && |shifts| == i
    && forall k {:trigger ShiftAll(Corrected(tracks[k]), shifts[k])} :: 0 <= k < i ==>
         && 0 <= ranges[k].0 <= ranges[k].1 <= |frames|
         && frames[ranges[k].0..ranges[k].1] == ShiftAll(Corrected(tracks[k]), shifts[k])
  }

  /** No pelvis jump where a file begins. */
  ghost predicate Seamless(i: nat, p: Playlist) {
    forall k :: 0 < k < i && k < |p.ranges| ==> Joined(p.frames, p.ranges[k].0)
  }

  /** The first file is centred and gives the baseline; the canvas size and
      the last frame's joints come from the latest file. */
  ghost predicate Anchored(tracks: seq<Track>, i: nat, p: Playlist) {
    i > 0 ==>
      && i <= |tracks|
      && LoadableAt(tracks, 0) && LoadableAt(tracks, i - 1)
      && |p.frames| > 0
      && Last(p.frames).Keys == Last(tracks[i - 1].content.value.frames).Keys
      && Pelvis in p.frames[0]
      && p.frames[0][Pelvis] == Centre(tracks[0].content.value.resolution.value.0, tracks[0].content.value.resolution.value.1)
      && p.baseline == p.frames[0]
      && (p.w, p.h) == tracks[i - 1].content.value.resolution.value
  }

  /** What the viewer's loop has established after the first `i` files. */
  ghost predicate Progress(tracks: seq<Track>, i: nat, p: Playlist) {
    && i <= |tracks|
    && (forall k :: 0 <= k < i ==> LoadableAt(tracks, k))
    && Sized(tracks, i, p)
    && Mapped(tracks, i, p)
    && Seamless(i, p)
    && Anchored(tracks, i, p)
  }

  /** Everything the viewer establishes about a loaded playlist: every file
      was loadable; the ranges tile the frames, one per file, each as long as
      its file; every frame is mapped to its file's path; each file's range
      holds that file's corrected frames moved by one vector; no pelvis jump
      at any file boundary; the first file is centred and gives the baseline. */
  ghost predicate Bookkept(p: Playlist, tracks: seq<Track>) {
    |tracks| > 0 && Progress(tracks, |tracks|, p)
  }

  /** The frames file `i` contributes: corrected, then centred (first file)
      or aligned to the previous last pelvis. */
  function Placed(tracks: seq<Track>, i: nat, frames: seq<Joints>): (r: seq<Joints>)
    requires i < |tracks| && LoadableAt(tracks, i)
    requires i > 0 ==> |frames| > 0 && Pelvis in Last(frames)
  {
    var clip := tracks[i].content.value;
    var cur := CorrectAll(clip.frames, ViewerElbowDrop);
    CorrectKeepsPelvis(clip.frames[0], ViewerElbowDrop);
    if i == 0 then AlignTo(cur, Centre(clip.resolution.value.0, clip.resolution.value.1))
    else AlignTo(cur, Last(frames)[Pelvis])
  }

  /** What the loop needs to know of the frames `cur` that file `i` adds. */
  ghost predicate Fits(tracks: seq<Track>, i: nat, p: Playlist, cur: seq<Joints>) {
    && i < |tracks| && LoadableAt(tracks, i)
    && |cur| == FrameCountOf(tracks[i]) && |cur| > 0
    && Pelvis in cur[0]
    && Last(cur).Keys == Last(tracks[i].content.value.frames).Keys
    && (i == 0 ==> cur[0][Pelvis] == Centre(tracks[i].content.value.resolution.value.0, tracks[i].content.value.resolution.value.1))
    && (i > 0 ==> |p.frames| > 0 && Pelvis in Last(p.frames) && cur[0][Pelvis] == Last(p.frames)[Pelvis])
  }

  lemma PlacedFits(tracks: seq<Track>, i: nat, p: Playlist)
    requires i < |tracks| && LoadableAt(tracks, i)
    requires i > 0 ==> |p.frames| > 0 && Pelvis in Last(p.frames)
    ensures Fits(tracks, i, p, Placed(tracks, i, p.frames))
  {
    var clip := tracks[i].content.value;
    CorrectKeepsPelvis(clip.frames[0], ViewerElbowDrop);
    CorrectKeepsPelvis(Last(clip.frames), ViewerElbowDrop);
  }

  /** The vector by which file `i`'s frames are moved: its first pelvis onto
      the canvas centre (first file) or onto the previous last pelvis. */
  function PlacedShift(tracks: seq<Track>, i: nat, frames: seq<Joints>): Point
    requires i < |tracks| && LoadableAt(tracks, i)
    requires i > 0 ==> |frames| > 0 && Pelvis in Last(frames)
  {
    var clip := tracks[i].content.value;
    var target := if i == 0 then Centre(clip.resolution.value.0, clip.resolution.value.1) else Last(frames)[Pelvis];
    Sub(target, clip.frames[0][Pelvis])
  }

  /** File `i`'s frames are moved as a whole, by `PlacedShift`. */
  lemma PlacedTranslated(tracks: seq<Track>, i: nat, frames: seq<Joints>)
    requires i < |tracks| && LoadableAt(tracks, i)
    requires i > 0 ==> |frames| > 0 && Pelvis in Last(frames)
    ensures Placed(tracks, i, frames) == ShiftAll(Corrected(tracks[i]), PlacedShift(tracks, i, frames))
  {
    CorrectKeepsPelvis(tracks[i].content.value.frames[0], ViewerElbowDrop);
  }

  /** The playlist after appending file `i`'s frames `cur`. */
  function Appended(tracks: seq<Track>, i: nat, p: Playlist, cur: seq<Joints>): Playlist
    requires i < |tracks| && LoadableAt(tracks, i) && |cur| > 0
  {
    var clip := tracks[i].content.value;
    Playlist(
      p.frames + cur,
      if i == 0 then map[] + cur[0] else p.baseline,
      p.mapping + seq(|cur|, _ => tracks[i].path),
      p.ranges + [(|p.frames|, |p.frames| + |cur|)],
      clip.resolution.value.0, clip.resolution.value.1)
  }

  lemma TilesAppend(ranges: seq<(int, int)>, lo: int, hi: int, e: int)
    requires Tiles(ranges, lo, hi) && hi < e
    ensures Tiles(ranges + [(hi, e)], lo, e)
  {
  }

  lemma ExtendSized(tracks: seq<Track>, i: nat, p: Playlist, cur: seq<Joints>)
    requires Fits(tracks, i, p, cur) && Sized(tracks, i, p)
    ensures Sized(tracks, i + 1, Appended(tracks, i, p, cur))
  {
    var q := Appended(tracks, i, p, cur);
    assert q.ranges == p.ranges + [(|p.frames|, |q.frames|)];
    assert |q.mapping| == |p.mapping| + |cur|;
    TilesAppend(p.ranges, 0, |p.frames|, |q.frames|);
    forall k | 0 <= k < i + 1
      ensures q.ranges[k].1 - q.ranges[k].0 == FrameCountOf(tracks[k])
    {
      if k < i {
        assert q.ranges[k] == p.ranges[k];
      }
    }
  }

  lemma ExtendMapped(tracks: seq<Track>, i: nat, p: Playlist, cur: seq<Joints>)
    requires Fits(tracks, i, p, cur) && Sized(tracks, i, p) && Mapped(tracks, i, p)
    ensures Sized(tracks, i + 1, Appended(tracks, i, p, cur)) && Mapped(tracks, i + 1, Appended(tracks, i, p, cur))
  {
    ExtendSized(tracks, i, p, cur);
    var q := Appended(tracks, i, p, cur);
    forall k, n | 0 <= k < i + 1 && q.ranges[k].0 <= n < q.ranges[k].1
      ensures q.mapping[n] == tracks[k].path
    {
      if k < i {
        assert q.ranges[k] == p.ranges[k];
        assert n < |p.frames|;
        assert q.mapping[n] == p.mapping[n];
      }
    }
  }

  /** Appending file `i`'s frames, moved as a whole by `d`, keeps `Contents`. */
  lemma ExtendContents(tracks: seq<Track>, i: nat, frames: seq<Joints>, ranges: seq<(int, int)>,
                       shifts: seq<Point>, cur: seq<Joints>, d: Point)
    requires Contents(tracks, i, frames, ranges, shifts) && i < |tracks|
    requires cur == ShiftAll(Corrected(tracks[i]), d)
    ensures Contents(tracks, i + 1, frames + cur, ranges + [(|frames|, |frames| + |cur|)], shifts + [d])
  {
    var q := frames + cur;
    var rs := ranges + [(|frames|, |frames| + |cur|)];
    var ds := shifts + [d];
    forall k | 0 <= k < i + 1
      ensures 0 <= rs[k].0 <= rs[k].1 <= |q| && q[rs[k].0..rs[k].1] == ShiftAll(Corrected(tracks[k]), ds[k])
    {
      if k < i {
        assert rs[k] == ranges[k] && ds[k] == shifts[k];
        var own := ShiftAll(Corrected(tracks[k]), shifts[k]);
        assert 0 <= ranges[k].0 <= ranges[k].1 <= |frames| && frames[ranges[k].0..ranges[k].1] == own;
        SliceOfPrefix(frames, cur, ranges[k].0, ranges[k].1);
      } else {
        assert q[|frames|..|q|] == cur;
      }
    }
  }

  /** A slice inside the front of a concatenation is a slice of the front. */
  lemma SliceOfPrefix(a: seq<Joints>, b: seq<Joints>, lo: int, hi: int)
    requires 0 <= lo <= hi <= |a|
    ensures (a + b)[lo..hi] == a[lo..hi]
  {
  }

  lemma ExtendSeamless(tracks: seq<Track>, i: nat, p: Playlist, cur: seq<Joints>)
    requires Fits(tracks, i, p, cur) && Sized(tracks, i, p) && Seamless(i, p)
    ensures Seamless(i + 1, Appended(tracks, i, p, cur))
  {
    var q := Appended(tracks, i, p, cur);
    forall k | 0 < k < i + 1 && k < |q.ranges| ensures Joined(q.frames, q.ranges[k].0) {
      if k < i {
        assert q.ranges[k] == p.ranges[k];
        assert Joined(p.frames, p.ranges[k].0);
        assert q.frames[p.ranges[k].0] == p.frames[p.ranges[k].0];
        assert q.frames[p.ranges[k].0 - 1] == p.frames[p.ranges[k].0 - 1];
      } else {
        assert q.frames[|p.frames|] == cur[0];
        assert q.frames[|p.frames| - 1] == Last(p.frames);
      }
    }
  }

  lemma ExtendAnchored(tracks: seq<Track>, i: nat, p: Playlist, cur: seq<Joints>)
    requires Fits(tracks, i, p, cur) && Sized(tracks, i, p) && Anchored(tracks, i, p)
    ensures Anchored(tracks, i + 1, Appended(tracks, i, p, cur))
  {
    var q := Appended(tracks, i, p, cur);
    assert Last(q.frames) == Last(cur);
    if i == 0 {
      assert q.frames[0] == cur[0];
      assert map[] + cur[0] == cur[0];
    } else {
      assert q.frames[0] == p.frames[0];
    }
  }

  lemma ExtendProgress(tracks: seq<Track>, i: nat, p: Playlist, cur: seq<Joints>)
    requires Fits(tracks, i, p, cur) && Progress(tracks, i, p)
    ensures Progress(tracks, i + 1, Appended(tracks, i, p, cur))
  {
    ExtendMapped(tracks, i, p, cur);
    ExtendSeamless(tracks, i, p, cur);
    ExtendAnchored(tracks, i, p, cur);
  }

  /** One iteration of the viewer's loop over a loadable file keeps the
      bookkeeping invariant. */
  lemma LoopStep(tracks: seq<Track>, i: nat, p: Playlist)
    requires i < |tracks| && LoadableAt(tracks, i) && Progress(tracks, i, p)
    ensures i > 0 ==> |p.frames| > 0 && Pelvis in Last(p.frames)
    ensures Progress(tracks, i + 1, Appended(tracks, i, p, Placed(tracks, i, p.frames)))
  {
    PlacedFits(tracks, i, p);
    ExtendProgress(tracks, i, p, Placed(tracks, i, p.frames));
  }

  /** One iteration of the viewer's loop over a loadable file keeps the
      contents invariant. */
  lemma ContentsStep(tracks: seq<Track>, i: nat, p: Playlist, shifts: seq<Point>)
    requires i < |tracks| && LoadableAt(tracks, i) && Contents(tracks, i, p.frames, p.ranges, shifts)
    requires i > 0 ==> |p.frames| > 0 && Pelvis in Last(p.frames)
    ensures var q := Appended(tracks, i, p, Placed(tracks, i, p.frames));
      Contents(tracks, i + 1, q.frames, q.ranges, shifts + [PlacedShift(tracks, i, p.frames)])
  {
    var cur := Placed(tracks, i, p.frames);
    var d := PlacedShift(tracks, i, p.frames);
    assert cur == ShiftAll(Corrected(tracks[i]), d) by {
      PlacedTranslated(tracks, i, p.frames);
    }
    assert Contents(tracks, i + 1, p.frames + cur, p.ranges + [(|p.frames|, |p.frames| + |cur|)], shifts + [d]) by {
      ExtendContents(tracks, i, p.frames, p.ranges, shifts, cur, d);
    }
    AppendedParts(tracks, i, p, cur);
  }

  lemma AppendedParts(tracks: seq<Track>, i: nat, p: Playlist, cur: seq<Joints>)
    requires i < |tracks| && LoadableAt(tracks, i) && |cur| > 0
    ensures Appended(tracks, i, p, cur).frames == p.frames + cur
    ensures Appended(tracks, i, p, cur).ranges == p.ranges + [(|p.frames|, |p.frames| + |cur|)]
  {
  }

  /** The first lookup that raises while file `i` is processed, in the order
      of pygame_Alpha.py lines 171-199: open/parse, resolution, then for a
      later file the previous last pelvis, then this file's frame 0 and its
      pelvis. The previous last pelvis is looked up in the accumulated frames,
      whose last frame has the same joints as the previous file's last frame. */
  function Fault(tracks: seq<Track>, i: nat): (r: Option<Reason>)
    requires i < |tracks|
    ensures r.None? <==> LoadableAt(tracks, i)
  {
    if tracks[i].content.None? then Some(Unreadable)
    else if tracks[i].content.value.resolution.None? then Some(NoResolution)
    else if i > 0 && tracks[i - 1].content.Some? && |tracks[i - 1].content.value.frames| > 0
            && Pelvis !in Last(tracks[i - 1].content.value.frames) then Some(NoPelvis)
    else if |tracks[i].content.value.frames| == 0 then Some(NoFrames)
    else if Pelvis !in tracks[i].content.value.frames[0] then Some(NoPelvis)
    else None
  }

  /** pygame_Alpha.py `main`, lines 165-211: load, correct, centre the first
      file, stitch each later file onto the previous last pelvis, and record
      the per-frame file names and per-file frame ranges. A file that cannot be
      read, or lacks a resolution, frames or a needed pelvis, raises. */
  method LoadPlaylist(tracks: seq<Track>) returns (r: Result<Playlist, LoadError>)
    ensures r.Success? <==> |tracks| > 0 && forall i :: 0 <= i < |tracks| ==> LoadableAt(tracks, i)
    ensures r.Success? ==> Bookkept(r.value, tracks)
    ensures r.Success? ==> exists shifts :: Contents(tracks, |tracks|, r.value.frames, r.value.ranges, shifts)
    ensures r.Failure? && r.error.Crash? ==>
      && r.error.index < |tracks|
      && !LoadableAt(tracks, r.error.index)
      && forall k :: 0 <= k < r.error.index ==> LoadableAt(tracks, k)
    ensures r.Failure? && r.error.NoFiles? ==> |tracks| == 0
  {
    if |tracks| == 0 {
      return Failure(NoFiles);
    }
    var p := Playlist([], map[], [], [], 0, 0);
    var i := 0;
    ghost var shifts: seq<Point> := [];
    while i < |tracks|
      invariant Progress(tracks, i, p)
      invariant Contents(tracks, i, p.frames, p.ranges, shifts)
    {
      var fault := Fault(tracks, i);
      if fault.Some? {
        return Failure(Crash(i, fault.value));
      }
      LoopStep(tracks, i, p);
      ContentsStep(tracks, i, p, shifts);
      shifts := shifts + [PlacedShift(tracks, i, p.frames)];
      p := Appended(tracks, i, p, Placed(tracks, i, p.frames));
      i := i + 1;
    }
    assert Contents(tracks, |tracks|, p.frames, p.ranges, shifts);
    return Success(p);
  }

  /** The paths of the files, one per file. */
  function Paths(tracks: seq<Track>): (r: seq<string>)
    ensures |r| == |tracks|
    ensures forall k :: 0 <= k < |r| ==> r[k] == tracks[k].path
  {
    seq(|tracks|, k requires 0 <= k < |tracks| => tracks[k].path)
  }

  /** The debug overlay text `JSON: path, Frame: frame/total`. */
  datatype Label = Label(path: string, frame: int, total: int)

  /** pygame_Alpha.py lines 103-109 as written: `zip(frame_json_mapping,
      frame_json_ranges)` pairs the k-th range with the k-th entry of the
      per-frame mapping, and the first range containing `idx` gives the label. */
  function DebugLabel(names: seq<string>, ranges: seq<(int, int)>, idx: int): (r: Option<Label>)
    ensures r.Some? ==> 1 <= r.value.frame <= r.value.total
  {
    if |names| == 0 || |ranges| == 0 then None
    else if ranges[0].0 <= idx < ranges[0].1 then
      Some(Label(names[0], idx - ranges[0].0 + 1, ranges[0].1 - ranges[0].0))
    else DebugLabel(names[1..], ranges[1..], idx)
  }

  /** A label is produced exactly when one of the first `min(len(names),
      len(ranges))` ranges holds the frame: `zip` stops at the shorter list. */
  lemma {:induction false} DebugLabelFound(names: seq<string>, ranges: seq<(int, int)>, idx: int)
    ensures DebugLabel(names, ranges, idx).Some? <==>
      exists k :: 0 <= k < |names| && k < |ranges| && ranges[k].0 <= idx < ranges[k].1
  {
    if |names| > 0 && |ranges| > 0 && !(ranges[0].0 <= idx < ranges[0].1) {
      DebugLabelFound(names[1..], ranges[1..], idx);
      if exists k :: 0 <= k < |names| && k < |ranges| && ranges[k].0 <= idx < ranges[k].1 {
        var k :| 0 <= k < |names| && k < |ranges| && ranges[k].0 <= idx < ranges[k].1;
        assert names[1..][k - 1] == names[k] && ranges[1..][k - 1] == ranges[k];
      }
      if DebugLabel(names, ranges, idx).Some? {
        var k :| 0 <= k < |names[1..]| && k < |ranges[1..]| && ranges[1..][k].0 <= idx < ranges[1..][k].1;
        assert ranges[1..][k] == ranges[k + 1];
      }
    }
  }

  /** The label of a frame inside a tiling is given by the range that holds it. */
  lemma {:induction false} LabelOfTiledFrame(names: seq<string>, ranges: seq<(int, int)>, lo: int, hi: int, k: nat, idx: int)
    requires Tiles(ranges, lo, hi) && k < |ranges| && k < |names|
    requires ranges[k].0 <= idx < ranges[k].1
    ensures DebugLabel(names, ranges, idx) == Some(Label(names[k], idx - ranges[k].0 + 1, ranges[k].1 - ranges[k].0))
    decreases k
  {
    if k > 0 {
      assert !(ranges[0].0 <= idx < ranges[0].1) by {
        TilesOrdered(ranges, lo, hi, 0, k);
      }
      var tail := ranges[1..];
      TilesTail(ranges, lo, hi);
      LabelOfTiledFrame(names[1..], tail, ranges[0].1, hi, k - 1, idx);
    }
  }

  lemma {:induction false} TilesOrdered(ranges: seq<(int, int)>, lo: int, hi: int, a: nat, b: nat)
    requires Tiles(ranges, lo, hi) && a < b < |ranges|
    ensures ranges[a].1 <= ranges[b].0
    decreases b - a
  {
    if a + 1 < b {
      TilesOrdered(ranges, lo, hi, a + 1, b);
    }
  }

  lemma TilesTail(ranges: seq<(int, int)>, lo: int, hi: int)
    requires Tiles(ranges, lo, hi) && |ranges| > 0
    ensures Tiles(ranges[1..], ranges[0].1, hi)
  {
    var tail := ranges[1..];
    forall k | 0 <= k < |tail| ensures ranges[0].1 <= tail[k].0 {
      TilesOrdered(ranges, lo, hi, 0, k + 1);
    }
  }

  /** The overlay as written names the wrong file: in a playlist whose first
      file has at least two frames, the first frame of the second file is
      labelled with the first file's path. */
  lemma DebugLabelMislabels(p: Playlist, tracks: seq<Track>)
    requires Bookkept(p, tracks) && |tracks| >= 2
    requires FrameCountOf(tracks[0]) >= 2 && tracks[0].path != tracks[1].path
    ensures var idx := p.ranges[1].0;
      && 0 <= idx < |p.frames| && p.mapping[idx] == tracks[1].path
      && DebugLabel(p.mapping, p.ranges, idx) == Some(Label(tracks[0].path, 1, FrameCountOf(tracks[1])))
  {
    var idx := p.ranges[1].0;
    LabelOfTiledFrame(p.mapping, p.ranges, 0, |p.frames|, 1, idx);
    assert p.ranges[0].0 <= 1 < p.ranges[0].1;
  }

  /** The evidently intended overlay: each range paired with its own file. */
  function FileLabel(paths: seq<string>, ranges: seq<(int, int)>, idx: int): (r: Option<Label>)
    ensures r.Some? ==> 1 <= r.value.frame <= r.value.total
  {
    DebugLabel(paths, ranges, idx)
  }

  /** Every frame of a loaded playlist is labelled with the file it came from,
      its 1-based position in that file, and that file's frame count. */
  lemma FileLabelNamesSource(p: Playlist, tracks: seq<Track>, idx: int) returns (k: nat)
    requires Bookkept(p, tracks) && 0 <= idx < |p.frames|
    ensures k < |tracks| && k < |p.ranges| && p.ranges[k].0 <= idx < p.ranges[k].1
    ensures FileLabel(Paths(tracks), p.ranges, idx) ==
      Some(Label(p.mapping[idx], idx - p.ranges[k].0 + 1, FrameCountOf(tracks[k])))
  {
    BookkeptTiles(p, tracks);
    k := RangeOf(p.ranges, 0, |p.frames|, idx);
    BookkeptOwner(p, tracks, k, idx);
    OwnLabel(Paths(tracks), p.ranges, |p.frames|, k, idx);
    assert Paths(tracks)[k] == p.mapping[idx];
  }

  /** In a tiling, the per-file label of a frame is its own range's. */
  lemma OwnLabel(paths: seq<string>, ranges: seq<(int, int)>, n: int, k: nat, idx: int)
    requires Tiles(ranges, 0, n) && |ranges| == |paths| && k < |ranges|
    requires ranges[k].0 <= idx < ranges[k].1
    ensures FileLabel(paths, ranges, idx) == Some(Label(paths[k], idx - ranges[k].0 + 1, ranges[k].1 - ranges[k].0))
  {
    LabelOfTiledFrame(paths, ranges, 0, n, k, idx);
  }

  lemma BookkeptTiles(p: Playlist, tracks: seq<Track>)
    requires Bookkept(p, tracks)
    ensures |p.ranges| == |tracks| == |Paths(tracks)| && Tiles(p.ranges, 0, |p.frames|)
  {
  }

  lemma BookkeptOwner(p: Playlist, tracks: seq<Track>, k: int, idx: int)
    requires Bookkept(p, tracks) && 0 <= k < |tracks| && p.ranges[k].0 <= idx < p.ranges[k].1
    ensures 0 <= idx < |p.mapping| && p.mapping[idx] == Paths(tracks)[k]
    ensures p.ranges[k].1 - p.ranges[k].0 == FrameCountOf(tracks[k])
  {
    assert Sized(tracks, |tracks|, p) && Mapped(tracks, |tracks|, p);
  }

  /** The range of a tiling that holds frame `idx`. */
  lemma {:induction false} RangeOf(ranges: seq<(int, int)>, lo: int, hi: int, idx: int) returns (k: nat)
    requires Tiles(ranges, lo, hi) && lo <= idx < hi
    ensures k < |ranges| && ranges[k].0 <= idx < ranges[k].1
    decreases |ranges|
  {
    if idx < ranges[0].1 {
      k := 0;
    } else {
      TilesTail(ranges, lo, hi);
      var j := RangeOf(ranges[1..], ranges[0].1, hi, idx);
      k := j + 1;
    }
  }

  /** Euclidean remainder facts the playback indices rely on. */
  lemma ModFacts(a: int, n: int)
    requires n > 0
    ensures 0 <= a % n < n
    ensures 0 <= a < n ==> a % n == a
    ensures a == n ==> a % n == 0
    ensures a == -1 ==> a % n == n - 1
  {
    if a == -1 {
      assert -1 == n * (-1) + (n - 1);
    }
  }

  /** The playback index after a right-arrow or an unpaused tick: `(idx + 1) % len(frames)`. */
  function Advance(idx: int, n: int): (r: int)
    requires n > 0
    ensures 0 <= r < n
    ensures 0 <= idx < n - 1 ==> r == idx + 1
    ensures idx == n - 1 ==> r == 0
  {
    ModFacts(idx + 1, n);
    (idx + 1) % n
  }

  /** The playback index after a left-arrow while paused: Python's
      `(idx - 1) % len(frames)`, which is never negative. */
  function Back(idx: int, n: int): (r: int)
    requires n > 0
    ensures 0 <= r < n
    ensures 0 < idx <= n - 1 ==> r == idx - 1
    ensures idx == 0 ==> r == n - 1
  {
    ModFacts(idx - 1, n);
    (idx - 1) % n
  }

  /** Stepping forward then back (or back then forward) returns to the frame. */
  lemma StepsInverse(idx: int, n: int)
    requires 0 <= idx < n
    ensures Back(Advance(idx, n), n) == idx
    ensures Advance(Back(idx, n), n) == idx
  {
  }
}
